=== FILE: README.md ===
# SQL Server driver for the SilverStripe ORM, modelled in Dafny

This project models the core of the `silverstripe-mssql` database driver, which lets the framework's ORM talk to Microsoft SQL Server through either the `mssql_` or the `sqlsrv_` PHP extension. The model has five parts:

- **Query builder** (`MSSQLQueryBuilder`, in `mssql_query_builder.dfy`). It emulates LIMIT/OFFSET on an engine whose paging primitive is `TOP n`.
  - `parseLimit` reads the query's limit, given as an array, as `N offset M`, or as `offset,limit`.
  - When either part is PHP-empty, `buildSelectQuery` keeps the parent's statement. It injects `TOP` after the leading `SELECT [DISTINCT]` only when the value bound to `$limit` is non-empty, and as written that value is the parsed offset (see Swapped pair below).
  - With both a limit and an offset, it numbers the rows with `ROW_NUMBER() OVER (...)` and wraps the statement in a `BETWEEN` sub-select.
  - `buildOrderByFragment` suppresses the parent's ORDER BY when the window has already consumed it.
- **Shared connector base** (`MSDBConnector`, in `ms_db_connector.dfy`). It covers:
  - `escapeString` and `quoteString` (`N'...'` literals);
  - the `databaseError` message with the last-error suffix;
  - the selected database;
  - the SQL text of the identity and version probes.

  A T-SQL string-literal reader is the partner of the escaping. It shows that a quoted value reads back as exactly one literal, holding the escaped value: the value itself when it has no NUL character, and otherwise the value with each NUL spelled `[NULL]`.
- **Result cursor** (`MSSQLQuery`, in `mssql_query.dfy`). It covers:
  - the field list captured once at construction;
  - the guards for a handle that is not a result resource;
  - `nextRecord`'s datetime clean-up;
  - the merge of columns that share a name.
- **`sqlsrv_` connector** (`SQLServerConnector`, in `sql_server_connector.dfy`). It covers:
  - the connection options;
  - connect and commit failures;
  - the outcome of `query`, which caches the affected-row count.
- **`mssql_` connector** (`MSSQLConnector`, in `mssql_connector.dfy`). It covers:
  - the connect failure;
  - the outcome of `query`, which wraps the native handle in a cursor.

Two support modules hold the PHP semantics the code relies on:

- `Text` (`text.dfy`): `trim`, `explode`/`implode`, one-character `str_replace`, ASCII case folding and integer printing.
- `Php` (`php.dfy`):
  - `empty()` and truthiness;
  - string conversion;
  - integral numeric strings;
  - insertion-ordered arrays (`OrderedMap`, with `Lookup`, `Put` and `Remove`);
  - the outcome of raising an error through the framework's `databaseError`.

Collaborators that are not in this code become parameters:

- the parent `DBQueryBuilder` renderers, `SelectRenderer` and `OrderByRenderer`;
- the native `mssql_*`/`sqlsrv_*` calls;
- `previewWrite`;
- the `strtotime`/`date` conversion (`toCanonical`);
- whether `databaseError` aborts (`aborts`, a predicate on the error level).

The parent's `buildSelectQuery` calls back into this builder's `buildOrderByFragment`. So a `SelectRenderer` receives the query together with the fragment that override returned.

The model follows the code as written. Points worth knowing:

- **Swapped pair.** `parseLimit` documents its result as a two-item array with `$limit` and `$offset` as values (code/MSSQLQueryBuilder.php:69), and returns them in that order. `buildSelectQuery` destructures that pair as `($offset, $limit)`, so:
  - `TOP` receives the parsed offset;
  - the window runs from limit + 1 to limit + offset, not from offset + 1 to offset + limit.

  See Findings.
- **Offset "0".** An offset of `'0'` is PHP-empty, so the statement takes the non-windowed path. As written, `$limit` is then bound to that `'0'`, which is also empty, so no `TOP` is added.
- **No diagnostic text in connector errors.** Both connectors extend the framework's plain `DBConnector`, not `MSDBConnector`, so their errors go through the parent's `databaseError` without a last-error suffix.
- **What the connectors implement.** Both implement `connect` and `query`, and the `sqlsrv_` connector also implements `transactionEnd`, which commits. Their other methods, including `selectDatabase`, have empty bodies. `connect` reads only the server, username and password parameters, plus `windowsauthentication` for `sqlsrv_`; it selects no database.
- **Windows authentication.** Besides the `windowsauthentication` parameter, it is also switched on by the `MSSQL_USE_WINDOWS_AUTHENTICATION` constant.
- **Non-aborting query error in the `mssql_` connector.** When `databaseError` does not abort, `query` still returns a cursor over the failed handle.

## Model

| member | source | states |
|---|---|---|
| `MSSQLQueryBuilder.ParseLimitDefaults` | code/MSSQLQueryBuilder.php:74-75 | With no limit, or an empty limit text, the pair is limit `""` and offset `"0"`. |
| `MSSQLQueryBuilder.ParseLimitArray` | code/MSSQLQueryBuilder.php:76-79 | For the array form, the limit is the `limit` entry and the offset the `start` entry, each only when set (present and not null); otherwise the default stays. |
| `MSSQLQueryBuilder.MatchOffsetForm` | code/MSSQLQueryBuilder.php:80 | A match splits the subject exactly into digits, a space, `offset` in any case, a space, and digits, and yields the two digit strings. |
| `MSSQLQueryBuilder.OffsetFormComplete` | code/MSSQLQueryBuilder.php:80 | Every text of that shape does match, with its two numbers (the converse of the above). |
| `MSSQLQueryBuilder.ParseLimitOffsetForm` | code/MSSQLQueryBuilder.php:80-82 | Any text that trims to `N offset M` parses to limit N and offset M, whatever trim characters surround it. |
| `MSSQLQueryBuilder.ParseLimitCommaForm` | code/MSSQLQueryBuilder.php:84-90 | For comma-joined pieces, the first piece is the offset, the second the limit, and further pieces are ignored. |
| `MSSQLQueryBuilder.ParseLimitBareForm` | code/MSSQLQueryBuilder.php:84-90 | Comma-free text that is not of the offset form is all limit, and the offset stays `"0"`. |
| `MSSQLQueryBuilder.BuildOrderByFragment` | code/MSSQLQueryBuilder.php:54-61 | The fragment is empty when both parsed components are non-empty (the windowed path), and the parent's fragment otherwise. |
| `MSSQLQueryBuilder.OrderByEmittedOnce` | code/MSSQLQueryBuilder.php:11-60 | If the parent would emit an ORDER BY, the fragment given to the parent is empty exactly when the windowed path is taken. So the ordering is never emitted both in the window and at the end. |
| `MSSQLQueryBuilder.SelectPrefixLength` | code/MSSQLQueryBuilder.php:15 | The match of `/^(SELECT (DISTINCT)?)/i` is 15 characters iff the text starts with `SELECT DISTINCT` ignoring case, and otherwise 7 iff it starts with `SELECT `. Otherwise there is no match. |
| `MSSQLQueryBuilder.InjectAfterSelect` | code/MSSQLQueryBuilder.php:46 | The inserted text sits right after the match, and the match is kept. Removing the inserted text gives the original back. Text without a match is unchanged. |
| `MSSQLQueryBuilder.RewritePreservesEmptiness` | code/MSSQLQueryBuilder.php:22-34 | The `_SortColumn` rewrite of the order-by leaves it non-empty exactly when it was non-empty. |
| `MSSQLQueryBuilder.WindowOrderClause` | code/MSSQLQueryBuilder.php:34-40 | The window ordering is the parent's ORDER BY fragment when the query has an order-by, else `ORDER BY` plus the first select expression. |
| `MSSQLQueryBuilder.SimplePath` | code/MSSQLQueryBuilder.php:7-17 | On the simple path the statement is the parent's, rendered with its own ORDER BY. `" TOP " + v` goes in after the SELECT keywords only when v is non-empty and the match exists, and nothing else changes. As written, v is the parsed offset. |
| `MSSQLQueryBuilder.WindowedPath` | code/MSSQLQueryBuilder.php:20-51 | On the windowed path the parent renders with an empty ORDER BY. `ROW_NUMBER() OVER (clause) AS Number,` is injected, and the result is wrapped in `BETWEEN` bounds. As written, those bounds are parsed limit + 1 and limit + offset. |
| `MSSQLQueryBuilder.PlainLimitIsDropped` | code/MSSQLQueryBuilder.php:7-17 | As written, a limit with an empty offset yields the parent's statement unchanged: no `TOP`. |
| `MSSQLQueryBuilder.PlainLimitGap` | code/MSSQLQueryBuilder.php:7-17 | For any plain limit other than `""` and `"0"`, the as-written statement has no `TOP`, while the in-order reading changes it. |
| `MSSQLQueryBuilder.PlainLimitCounterexample` | code/MSSQLQueryBuilder.php:7-15 | Limit text `"10"` on a SELECT: as written the statement is unchanged, while read in order it receives `TOP 10`. |
| `MSSQLQueryBuilder.ShiftedWindowCounterexample` | code/MSSQLQueryBuilder.php:7-51 | `limit 10, start 20` renders `BETWEEN 11 AND 30`, and over 30 rows that window is not the page of rows 21..30. |
| `MSSQLQueryBuilder.IntendedSimplePath` | code/MSSQLQueryBuilder.php:11-17 | Read in order, the simple path injects `" TOP " + limit` exactly when the parsed limit is non-empty. |
| `MSSQLQueryBuilder.IntendedWindowedPath` | code/MSSQLQueryBuilder.php:43-51 | Read in order, the window numbers rows from offset + 1 to offset + limit. |
| `MSSQLQueryBuilder.WindowRowsSlice` | code/MSSQLQueryBuilder.php:51 | `WHERE Number BETWEEN lo AND hi ORDER BY Number` over numbered rows keeps the contiguous slice of rows lo..hi. |
| `MSSQLQueryBuilder.IntendedWindowIsPage` | code/MSSQLQueryBuilder.php:49-51 | The window from offset + 1 to offset + limit is exactly the page of `limit` rows after `offset` rows. |
| `Text.TrimRecoversCore` | code/MSSQLQueryBuilder.php:80 | `trim` removes exactly the surrounding trim characters: padding around a core gives the core back. |
| `Text.Explode` | code/MSSQLQueryBuilder.php:85 | `explode` gives at least one piece, and no piece holds the separator. There is more than one piece iff the text holds the separator. |
| `Text.JoinExplode` | code/MSSQLQueryBuilder.php:85 | Joining the exploded pieces with the separator gives the text back. |
| `Text.ExplodeJoin` | code/MSSQLQueryBuilder.php:85 | Exploding a join of separator-free pieces gives the pieces back. |
| `Php.Put` | code/MSSQLQueryBuilder.php:30 | After `$m[$k] = $v`, `$m[$k]` is `$v`, every other key reads as before, and keys stay distinct. |
| `Php.PutKeys` | code/MSSQLQueryBuilder.php:30 | `$m[$k] = $v` leaves the key order unchanged when `$k` is present, and otherwise appends `$k` at the end. |
| `Php.LookupIffKey` | code/MSSQLQueryBuilder.php:30 | A key reads as present exactly when it is among `array_keys($m)`. |
| `Php.Remove` | code/MSSQLQueryBuilder.php:29 | After `unset($m[$k])` the key is absent, and every other key reads as before. |
| `Php.Raise` | code/connectors/MSDBConnector.php:25 | Raising reports the given error. It aborts exactly when the policy says so for its level, and otherwise execution resumes with the given value. |
| `MSDBConnector.DatabaseError` | code/connectors/MSDBConnector.php:18-26 | The level is passed on, and the message is kept as a prefix. The message is unchanged iff the last error is falsy; otherwise exactly `"\nLast error: "` and the last error are appended. |
| `MSDBConnector.UnloadDatabase` | code/connectors/MSDBConnector.php:40-42 | After unloading, no database is selected, and the last error is untouched. |
| `MSDBConnector.UnloadThenGet` | code/connectors/MSDBConnector.php:36-42 | After a database was selected and then unloaded, `getSelectedDatabase` reads null, and unloading twice is the same as once. |
| `MSDBConnector.GeneratedIdQuery` | code/connectors/MSDBConnector.php:32-34 | The identity probe is exactly `SELECT IDENT_CURRENT('`, then the table name verbatim, then `')`. |
| `MSDBConnector.GeneratedIdLiteral` | code/connectors/MSDBConnector.php:33 | For a table name without an apostrophe, the probe's literal reads back as exactly the name, followed by `)`. |
| `MSDBConnector.GeneratedIdUnescaped` | code/connectors/MSDBConnector.php:33 | For a table name with an apostrophe, the probe's literal never reads back as the name, because the name is not escaped. |
| `MSDBConnector.GetVersion` | code/connectors/MSDBConnector.php:28-30 | The version, read from the answer to the `SERVERPROPERTY('ProductVersion')` probe, has no trim character at either end. |
| `MSDBConnector.GetVersionRecovers` | code/connectors/MSDBConnector.php:28-30 | When the version probe answers a version padded with trim characters, the result is exactly that version. |
| `MSDBConnector.EscapeString` | code/connectors/MSDBConnector.php:56-60 | The escaped text contains no NUL character. |
| `MSDBConnector.EscapeStringCharwise` | code/connectors/MSDBConnector.php:56-60 | The two replacement passes amount to escaping each character on its own: `'` becomes `''`, NUL becomes `[NULL]`, and anything else is kept. |
| `MSDBConnector.CollapseEscape` | code/connectors/MSDBConnector.php:56-60 | Collapsing `''` back to `'` in the escaped text gives the value with each NUL spelled `[NULL]`. |
| `MSDBConnector.EscapeRoundTrip` | code/connectors/MSDBConnector.php:56-60 | For a NUL-free value, collapsing `''` in the escaped text gives the value back. |
| `MSDBConnector.EscapedRunsEven` | code/connectors/MSDBConnector.php:57 | Every maximal run of apostrophes in escaped text has even length. |
| `MSDBConnector.QuoteString` | code/connectors/MSDBConnector.php:51-53 | The quoted text starts `N'`, ends with `'`, and holds exactly the escaped value in between. |
| `MSDBConnector.ReadLiteralBodySound` | code/connectors/MSDBConnector.php:51-53 | Whatever a T-SQL literal reader accepts is the content with apostrophes doubled, then the closing apostrophe, then the rest. |
| `MSDBConnector.QuoteStringReadsBack` | code/connectors/MSDBConnector.php:51-53 | A quoted value followed by any text not starting with an apostrophe reads as one literal. The literal holds the value, with NUL spelled `[NULL]`, and ends exactly where the quoting closed it. |
| `MSSQLQuery.FetchFields` | code/queries/MSSQLQuery.php:45-49 | Collecting the field metadata from index i gives one descriptor per column from i on, in column order. |
| `MSSQLQuery.NewCursor` | code/queries/MSSQLQuery.php:38-50 | With a result resource, the field list has exactly one descriptor per column, in order; without one, the field list is empty. The row pointer starts at 0. |
| `MSSQLQuery.Seek` | code/queries/MSSQLQuery.php:58-62 | Seeking fails without a result resource. Otherwise it succeeds iff the row exists, and only then moves the row pointer. |
| `MSSQLQuery.NumRecords` | code/queries/MSSQLQuery.php:64-68 | `numRecords` is false iff there is no result resource, and otherwise the number of rows. |
| `MSSQLQuery.StripMillis` | code/queries/MSSQLQuery.php:82 | The text changes iff it ends with `:ddd` and `am`/`pm` (either case, optionally followed by a final newline), and then it is three characters shorter. |
| `MSSQLQuery.StripMillisSuffix` | code/queries/MSSQLQuery.php:82 | `t + ":" + ddd + ampm` becomes `t + " " + ampm`, keeping the original am/pm text. |
| `MSSQLQuery.StripMillisExample` | code/queries/MSSQLQuery.php:79-82 | `Jan  1 2012 12:00:00:000AM` becomes `Jan  1 2012 12:00:00 AM`. |
| `MSSQLQuery.DecodeValue` | code/queries/MSSQLQuery.php:81-83 | Conversion applies only when the column type is exactly `datetime` and the value is truthy; every other value passes through unchanged. |
| `MSSQLQuery.MergeInto` | code/queries/MSSQLQuery.php:85-87 | One loop step: a non-null value is stored, and a null never overwrites a set slot. Other slots never change, and keys stay distinct. |
| `MSSQLQuery.MergeColumns` | code/queries/MSSQLQuery.php:76-88 | The assembled row has distinct keys. |
| `MSSQLQuery.MergeIntoKeys` | code/queries/MSSQLQuery.php:85-86 | One assignment `$data[$field->name] = $value` keeps the key order: a name already present keeps its place, and a new name is appended at the end. |
| `MSSQLQuery.MergeColumnsKeys` | code/queries/MSSQLQuery.php:76-88 | The assembled row's keys are the column names, each once, in order of first appearance. A repeated name keeps the place of its first column, because PHP overwrites an existing key in place. |
| `MSSQLQuery.ColumnNamesOrder` | code/queries/MSSQLQuery.php:76-88 | That list of names is duplicate-free, holds every column's name and nothing else, and lists one name before another only when a column of the first comes before every column of the second. |
| `MSSQLQuery.MergeColumnsKeyOrder` | code/queries/MSSQLQuery.php:76-88 | The row's keys satisfy that same first-appearance order. |
| `MSSQLQuery.MergeColumnsSlot` | code/queries/MSSQLQuery.php:76-88 | Each name's slot holds the last non-null value among the columns of that name, or null if all are null. A name no column has gets no slot. |
| `MSSQLQuery.LastNonNullIsNull` | code/queries/MSSQLQuery.php:85-87 | A slot ends null only if every value for that name is null, so a null never hides an earlier non-null value. |
| `MSSQLQuery.NextRecord` | code/queries/MSSQLQuery.php:70-90 | `nextRecord` gives false, leaving everything unchanged, without a result resource or past the last row. It gives false on an empty row. The row pointer advances by one per fetched row, and the field list is never changed. |
| `MSSQLQuery.NextRecordKeys` | code/queries/MSSQLQuery.php:70-90 | The keys of every record `nextRecord` returns are the row's column names in order of first appearance. |
| `MSSQLQuery.NextRecordSlots` | code/queries/MSSQLQuery.php:70-90 | Every record `nextRecord` returns has, for each name, the last non-null decoded value of that name's columns. |
| `SQLServerConnector.ConnectOptions` | code/connectors/SQLServerConnector.php:34-44 | The options always hold `CharacterSet` `UTF-8` and `MultipleActiveResultSets` true. They hold `UID`/`PWD` (the username and password parameters) iff the Windows-auth constant is not true and the `windowsauthentication` parameter is empty; otherwise both are absent. No other option is set. |
| `SQLServerConnector.Connect` | code/connectors/SQLServerConnector.php:27-51 | The connection is what the native connect returns for the server parameter and those options. An error at `E_USER_ERROR` with the SQL Server connect message is raised exactly when that connection is false. |
| `SQLServerConnector.TransactionEnd` | code/connectors/SQLServerConnector.php:53-58 | A failed commit raises `Couldn't commit the transaction.` at `E_USER_ERROR`; a successful one raises nothing. The state is unchanged. |
| `SQLServerConnector.Query` | code/connectors/SQLServerConnector.php:92-112 | Covers each outcome; the affected-row count changes only after a successful statement. See the list below. |
| `MSSQLConnector.Connect` | code/connectors/MSSQLConnector.php:18-26 | The native connect receives the server, username and password parameters and a forced new link. An error at `E_USER_ERROR` with the MS SQL connect message is raised exactly when it returns false. |
| `MSSQLConnector.Query` | code/connectors/MSSQLConnector.php:60-77 | Covers each outcome; every cursor handed back wraps exactly the handle the native call returned. See the list below. |
| `MSSQLConnector.FailedQueryCursorIsInert` | code/connectors/MSSQLConnector.php:71-76 | The cursor returned after a reported, non-aborting failure yields no rows and no count, and cannot seek. |

The outcomes of `SQLServerConnector.Query`:

- A previewed write returns nothing, runs nothing and changes nothing.
- A statement caches its affected-row count and is returned wrapped.
- A failure at a falsy level returns nothing and changes nothing.
- A failure at any other level raises `"Couldn't run query: " + sql` at that level. If that does not abort, the failed statement is still returned wrapped.

The outcomes of `MSSQLConnector.Query`:

- A previewed write returns nothing and runs nothing.
- A handle returns a cursor over exactly that handle.
- A failure at a falsy level returns nothing.
- A failure at any other level raises `"Couldn't run query: " + sql`. If that does not abort, a cursor over the failed handle is still returned.

## Left out

- Installer probing in `MSSQLDatabaseConfigurationHelper.php` is not modelled. It consists of live queries, extension checks and `version_compare`.
- Native `mssql_*`/`sqlsrv_*` calls, `benchmarkQuery` and `previewWrite` are function parameters, and the native result set is a value. The `ini_get`/`ini_set` calls (`sqlsrv.WarningsReturnAsErrors`, `mssql.charset`) only change extension settings and are not modelled.
- `strtotime`/`date('Y-m-d H:i:s', …)` is the uninterpreted parameter `toCanonical`. Only the regex strip before it is modelled.
- The parent `DBQueryBuilder`/`DBConnector` renderers and `databaseError` are parameters, and whether an error aborts is a predicate on its level. The `&$parameters` list threaded through the renderers is not modelled: this code never touches it.
- The empty stub methods of both connectors are not modelled: `affectedRows`, `escapeString`, `getGeneratedID`, `getLastError`, `getSelectedDatabase`, `getVersion`, `isActive`, `preparedQuery`, `quoteString`, `selectDatabase` and `unloadDatabase`. The connectors have no begin or rollback.
- `SQLServerQuery` is not part of this model. The `sqlsrv_` connector's result is modelled as a wrapper around the statement.
- Destructors (`mssql_free_result`, `mssql_close`, `sqlsrv_close`) only release native resources and are not modelled.
- MSSQLQueryBuilder.InjectAfterSelect: requires that the inserted text contains no `$` or `\`. `preg_replace` would read those as back-references in the replacement, and that reading is not modelled.
- MSSQLQueryBuilder.WindowedPath: requires, through `Renderable`, that both operands of the bounds are PHP integers and that the two sums stay in the integer range. An operand is a PHP int, or a string of optional leading whitespace followed by digits whose value is at most `PHP_INT_MAX`. Coercion of other strings, longer digit strings (which PHP reads as floats), and sums that overflow to float are not modelled.
- Php.Lookup: PHP's conversion of integer-like string keys (`"1"` to `1`) is not modelled. Keys are compared as strings.
- MSSQLQuery.Seek: the native seek is modelled as moving the row pointer when the row exists, without the warning it prints otherwise.
- MSSQLConnector.Query: the error level is an integer, with 0 as PHP's falsy level. The same holds for `SQLServerConnector.Query`.

## Findings

| source | as written | input that shows it | evidently intended | confidence | as-written member | corrected member |
|---|---|---|---|---|---|---|
| code/MSSQLQueryBuilder.php:7 | `list($offset, $limit)` destructures `parseLimit`'s `array($limit, $offset)`, so `$limit` holds the offset, and `TOP` is injected only when the offset is non-empty | limit text `"10"` parses to limit `"10"`, offset `"0"`; `$limit` is `"0"`, so no `TOP` is added: the statement is the parent's rendering, unchanged | `list($limit, $offset)`, giving `TOP 10` | not executed; high | `MSSQLQueryBuilder.PlainLimitCounterexample` | `MSSQLQueryBuilder.IntendedSimplePath` |
| code/MSSQLQueryBuilder.php:7 | with both parts set, the window starts at limit + 1 instead of offset + 1 | `array('limit' => 10, 'start' => 20)` renders `BETWEEN 11 AND 30`: twenty rows, starting before the offset | `BETWEEN 21 AND 30`, the page after 20 rows | not executed; high | `MSSQLQueryBuilder.ShiftedWindowCounterexample` | `MSSQLQueryBuilder.IntendedWindowedPath` |

=== FILE: ms_db_connector.dfy ===
/**
 The shared base of the MS connectors: string literal escaping and quoting,
 the error message that carries the driver's last error, the selected
 database, and the SQL text of the identity and version probes.

 Running a probe is the subclass's `query`, which is not part of this
 module: the probes are given as the SQL text they issue, and the value
 the engine answers is a parameter.

 A T-SQL reader of string literals (`ReadLiteralBody`) is the partner of
 the escaping: it shows that the content comes back and that the literal
 closes exactly where the quoting put its closing apostrophe.
 */
module MSDBConnector {
  import opened Text
  import opened Php

  /** The connector's own state, and what the subclass's `getLastError` answers. */
  datatype MSDBState = MSDBState(selectedDatabase: Option<string>, lastError: Value)

  /* ------------------------------------------------------- databaseError */

  /** `databaseError`: the message, with `"\nLast error: "` and the last error
      appended when that is truthy, passed on at the given level. */
  function DatabaseError(st: MSDBState, message: string, level: int): (e: DbError)
    ensures e.level == level
    ensures |e.message| >= |message| && e.message[..|message|] == message
    ensures e.message == message <==> !Truthy(st.lastError)
    ensures Truthy(st.lastError) ==>
              e.message[|message|..] == "\nLast error: " + ToString(st.lastError)
  {
    if Truthy(st.lastError)
    then DbError(message + "\nLast error: " + ToString(st.lastError), level)
    else DbError(message, level)
  }

  /* ------------------------------------------------------ selected database */

  function GetSelectedDatabase(st: MSDBState): Option<string> {
    st.selectedDatabase
  }

  /** `unloadDatabase`: forget the selected database, and nothing else. */
  function UnloadDatabase(st: MSDBState): (r: MSDBState)
    ensures GetSelectedDatabase(r) == None
    ensures r.lastError == st.lastError
  {
    st.(selectedDatabase := None)
  }

  /** Reading the selected database changes nothing, and after unloading it reads null. */
  lemma UnloadThenGet(st: MSDBState, name: string)
    ensures GetSelectedDatabase(UnloadDatabase(st.(selectedDatabase := Some(name)))) == None
    ensures UnloadDatabase(UnloadDatabase(st)) == UnloadDatabase(st)
  {
  }

  /* --------------------------------------------------------------- probes */

  const IdentityProbePrefix: string := "SELECT IDENT_CURRENT('"
  const IdentityProbeSuffix: string := "')"

  /** The SQL `getGeneratedID` issues; the table name goes in verbatim. */
  function GeneratedIdQuery(table: string): (sql: string)
    ensures |sql| == |IdentityProbePrefix| + |table| + |IdentityProbeSuffix|
    ensures sql[..|IdentityProbePrefix|] == IdentityProbePrefix
    ensures sql[|IdentityProbePrefix|..|IdentityProbePrefix| + |table|] == table
    ensures sql[|IdentityProbePrefix| + |table|..] == IdentityProbeSuffix
  {
    IdentityProbePrefix + table + IdentityProbeSuffix
  }

  const VersionQuery: string := "SELECT CONVERT(char(15), SERVERPROPERTY('ProductVersion'))"

  /** `getVersion`: the trimmed text of the value the version probe answers;
      `query` stands for running a statement and reading its first value. */
  function GetVersion(query: string -> Value): (version: string)
    ensures Trimmed(version)
  {
    var answer := query(VersionQuery);
    Trim(ToString(answer))
  }

  /** The padding of the fixed-width `char(15)` answer is removed, and nothing
      of the version itself. */
  lemma GetVersionRecovers(query: string -> Value, lead: string, core: string, trail: string)
    requires query(VersionQuery) == Str(lead + core + trail)
    requires AllTrimChars(lead) && AllTrimChars(trail)
    requires Trimmed(core)
    ensures GetVersion(query) == core
  {
    TrimRecoversCore(lead, core, trail);
  }

  /* ------------------------------------------------- escaping and quoting */

  /** `escapeString`: apostrophes doubled, then NUL characters replaced by `[NULL]`. */
  function EscapeString(value: string): (r: string)
    ensures '\0' !in r
  {
    var doubled := ReplaceChar(value, '\'', "''");
    ReplaceChar(doubled, '\0', "[NULL]")
  }

  /** `quoteString`: the escaped value as a unicode literal `N'...'`. */
  function QuoteString(value: string): (r: string)
    ensures |r| >= 3 && r[..2] == "N'" && r[|r| - 1] == '\''
    ensures r[2..|r| - 1] == EscapeString(value)
  {
    "N'" + EscapeString(value) + "'"
  }

  /** What escaping does to one character. */
  function EscapeChar(c: char): string {
    if c == '\'' then "''" else if c == '\0' then "[NULL]" else [c]
  }

  function EscapeEach(s: string): string {
    if s == [] then [] else EscapeChar(s[0]) + EscapeEach(s[1..])
  }

  /** The two replacement passes amount to escaping each character on its own:
      the first pass introduces no NUL, the second no apostrophe. */
  lemma {:induction false} EscapeStringCharwise(s: string)
    ensures EscapeString(s) == EscapeEach(s)
  {
    if s != [] {
      var c := s[0];
      var first := if c == '\'' then "''" else [c];
      assert ReplaceChar(s, '\'', "''") == first + ReplaceChar(s[1..], '\'', "''");
      ReplaceCharAppend(first, ReplaceChar(s[1..], '\'', "''"), '\0', "[NULL]");
      EscapeStringCharwise(s[1..]);
      assert ReplaceChar(first, '\0', "[NULL]") == EscapeChar(c) by {
        if c == '\'' {
          assert first == ['\''] + ['\''];
          assert first[1..] == ['\''];
          assert ReplaceChar(['\''], '\0', "[NULL]") == ['\''];
        }
      }
    }
  }

  /* ----------------------------------------------------- reading it back */

  /** PHP `str_replace("''", "'", $t)`: collapse doubled apostrophes, left to right. */
  function CollapseQuotes(t: string): string {
    if |t| >= 2 && t[0] == '\'' && t[1] == '\'' then "'" + CollapseQuotes(t[2..])
    else if t == [] then []
    else [t[0]] + CollapseQuotes(t[1..])
  }

  lemma {:induction false} CollapseQuoteFreePrefix(a: string, rest: string)
    requires '\'' !in a
    ensures CollapseQuotes(a + rest) == a + CollapseQuotes(rest)
    decreases |a|
  {
    if a != [] {
      assert (a + rest)[0] == a[0];
      assert (a + rest)[1..] == a[1..] + rest;
      CollapseQuoteFreePrefix(a[1..], rest);
    } else {
      assert a + rest == rest;
    }
  }

  /** Collapsing the doubled apostrophes of an escaped value gives the value
      back, with NUL characters still spelled `[NULL]`. */
  lemma {:induction false} CollapseEscape(s: string)
    ensures CollapseQuotes(EscapeString(s)) == ReplaceChar(s, '\0', "[NULL]")
  {
    EscapeStringCharwise(s);
    CollapseEscapeEach(s);
  }

  lemma {:induction false} CollapseEscapeEach(s: string)
    ensures CollapseQuotes(EscapeEach(s)) == ReplaceChar(s, '\0', "[NULL]")
  {
    if s != [] {
      var c := s[0];
      var rest := EscapeEach(s[1..]);
      CollapseEscapeEach(s[1..]);
      assert EscapeEach(s) == EscapeChar(c) + rest;
      if c == '\'' {
        assert (EscapeChar(c) + rest)[2..] == rest;
      } else {
        CollapseQuoteFreePrefix(EscapeChar(c), rest);
      }
    }
  }

  /** For NUL-free values escaping is undone by collapsing doubled apostrophes. */
  lemma EscapeRoundTrip(s: string)
    requires '\0' !in s
    ensures CollapseQuotes(EscapeString(s)) == s
  {
    CollapseEscape(s);
  }

  /** T-SQL's reading of a string literal body after its opening apostrophe:
      `''` stands for one apostrophe and a lone `'` ends the literal. Gives the
      content and the text after the literal; None when it never ends. */
  function ReadLiteralBody(t: string): Option<(string, string)>
    decreases |t|
  {
    if t == [] then None
    else if t[0] == '\'' then
      if |t| >= 2 && t[1] == '\'' then
        match ReadLiteralBody(t[2..])
        case None => None
        case Some((content, rest)) => Some(("'" + content, rest))
      else Some(([], t[1..]))
    else
      match ReadLiteralBody(t[1..])
      case None => None
      case Some((content, rest)) => Some(([t[0]] + content, rest))
  }

  /** A unicode literal `N'...'` at the start of `t`. */
  function ReadUnicodeLiteral(t: string): Option<(string, string)> {
    if |t| >= 2 && t[..2] == "N'" then ReadLiteralBody(t[2..]) else None
  }

  /** Whatever the reader accepts is the content with apostrophes doubled,
      a closing apostrophe, and the rest. */
  lemma {:induction false} ReadLiteralBodySound(t: string)
    requires ReadLiteralBody(t).Some?
    ensures
      var (content, rest) := ReadLiteralBody(t).value;
      t == ReplaceChar(content, '\'', "''") + "'" + rest
    decreases |t|
  {
    if t[0] == '\'' {
      if |t| >= 2 && t[1] == '\'' {
        ReadLiteralBodySound(t[2..]);
        var (content, rest) := ReadLiteralBody(t[2..]).value;
        assert ReadLiteralBody(t).value == (['\''] + content, rest);
        SoundStep('\'', content, rest);
        assert t == "''" + t[2..];
      } else {
        assert ReadLiteralBody(t).value == ([], t[1..]);
        assert t == "'" + t[1..];
      }
    } else {
      ReadLiteralBodySound(t[1..]);
      var (content, rest) := ReadLiteralBody(t[1..]).value;
      assert ReadLiteralBody(t).value == ([t[0]] + content, rest);
      SoundStep(t[0], content, rest);
      assert t == [t[0]] + t[1..];
    }
  }

  /** One reading step: a character read in front of a sound remainder was
      written as itself, or doubled if it is an apostrophe. */
  lemma SoundStep(x: char, content: string, rest: string)
    ensures
      (if x == '\'' then "''" else [x]) + (ReplaceChar(content, '\'', "''") + "'" + rest)
      == ReplaceChar([x] + content, '\'', "''") + "'" + rest
  {
    ReplaceCharCons(x, content, '\'', "''");
    var w := if x == '\'' then "''" else [x];
    var r := ReplaceChar(content, '\'', "''");
    assert w + (r + "'" + rest) == (w + r) + "'" + rest;
  }

  lemma {:induction false} ReadQuoteFreePrefix(a: string, rest: string)
    requires '\'' !in a
    requires ReadLiteralBody(rest).Some?
    ensures ReadLiteralBody(a + rest)
            == Some((a + ReadLiteralBody(rest).value.0, ReadLiteralBody(rest).value.1))
    decreases |a|
  {
    if a != [] {
      assert (a + rest)[1..] == a[1..] + rest;
      ReadQuoteFreePrefix(a[1..], rest);
      assert [a[0]] + (a[1..] + ReadLiteralBody(rest).value.0) == a + ReadLiteralBody(rest).value.0;
    } else {
      var v := ReadLiteralBody(rest).value;
      assert a + rest == rest;
      assert a + v.0 == v.0;
      assert ReadLiteralBody(rest) == Some((v.0, v.1));
    }
  }

  lemma {:induction false} ReadEscaped(s: string, tail: string)
    requires tail == [] || tail[0] != '\''
    ensures ReadLiteralBody(EscapeEach(s) + "'" + tail) == Some((ReplaceChar(s, '\0', "[NULL]"), tail))
  {
    if s == [] {
      assert EscapeEach(s) + "'" + tail == "'" + tail;
    } else {
      var c := s[0];
      var rest := EscapeEach(s[1..]) + "'" + tail;
      ReadEscaped(s[1..], tail);
      assert EscapeEach(s) + "'" + tail == EscapeChar(c) + rest;
      if c == '\'' {
        assert (EscapeChar(c) + rest)[2..] == rest;
      } else {
        ReadQuoteFreePrefix(EscapeChar(c), rest);
      }
    }
  }

  /** A quoted value reads back as one literal that ends where the quoting
      ended it: the content cannot close the literal early. The content is the
      value with NUL characters spelled `[NULL]`. The text that follows must
      not start with an apostrophe, which would merge with the closing one. */
  lemma QuoteStringReadsBack(s: string, tail: string)
    requires tail == [] || tail[0] != '\''
    ensures ReadUnicodeLiteral(QuoteString(s) + tail) == Some((ReplaceChar(s, '\0', "[NULL]"), tail))
  {
    var body := EscapeEach(s) + "'" + tail;
    QuotedText(s, tail);
    UnicodeLiteralStart(body);
    ReadEscaped(s, tail);
  }

  lemma QuotedText(s: string, tail: string)
    ensures QuoteString(s) + tail == "N'" + (EscapeEach(s) + "'" + tail)
  {
    EscapeStringCharwise(s);
    var e := EscapeEach(s);
    assert "N'" + e + "'" + tail == "N'" + (e + "'" + tail);
  }

  lemma UnicodeLiteralStart(body: string)
    ensures ReadUnicodeLiteral("N'" + body) == ReadLiteralBody(body)
  {
    var t := "N'" + body;
    assert t[..2] == "N'" && t[2..] == body;
  }

  /** The identity probe's literal holds exactly the table name when the name
      has no apostrophe. */
  lemma GeneratedIdLiteral(table: string)
    requires '\'' !in table
    ensures ReadLiteralBody(GeneratedIdQuery(table)[|IdentityProbePrefix|..]) == Some((table, ")"))
  {
    var t := GeneratedIdQuery(table)[|IdentityProbePrefix|..];
    assert t == table + "')";
    assert ReadLiteralBody("')") == Some(([], ")"));
    ReadQuoteFreePrefix(table, "')");
    assert table + [] == table;
  }

  /** Doubling apostrophes lengthens any text that has one. */
  lemma {:induction false} DoublingLengthens(c: string)
    ensures |ReplaceChar(c, '\'', "''")| >= |c|
    ensures '\'' in c ==> |ReplaceChar(c, '\'', "''")| > |c|
  {
    if c != [] {
      DoublingLengthens(c[1..]);
      if c[0] != '\'' {
        assert c == [c[0]] + c[1..];
      }
    }
  }

  /** The table name is not escaped: a name with an apostrophe never reads back
      as the probe's literal content followed by the closing parenthesis. */
  lemma GeneratedIdUnescaped(table: string)
    requires '\'' in table
    ensures ReadLiteralBody(GeneratedIdQuery(table)[|IdentityProbePrefix|..]) != Some((table, ")"))
  {
    var t := GeneratedIdQuery(table)[|IdentityProbePrefix|..];
    assert t == table + "')";
    if ReadLiteralBody(t) == Some((table, ")")) {
      ReadLiteralBodySound(t);
      DoublingLengthens(table);
      assert false;
    }
  }

  /* ------------------------------------------------ apostrophe runs */

  /** Reading left to right, every apostrophe is one of an adjacent pair. */
  predicate QuotesPaired(t: string)
    decreases |t|
  {
    if t == [] then true
    else if t[0] == '\'' then |t| >= 2 && t[1] == '\'' && QuotesPaired(t[2..])
    else QuotesPaired(t[1..])
  }

  /** `t[i..j]` is a maximal run of apostrophes. */
  ghost predicate QuoteRun(t: string, i: int, j: int) {
    && 0 <= i <= j <= |t|
    && (forall k :: i <= k < j ==> t[k] == '\'')
    && (i == 0 || t[i - 1] != '\'')
    && (j == |t| || t[j] != '\'')
  }

  lemma {:induction false} PairedRunsEven(t: string, i: int, j: int)
    requires QuotesPaired(t) && QuoteRun(t, i, j)
    ensures (j - i) % 2 == 0
    decreases |t|
  {
    if i < j {
      if t[0] != '\'' {
        assert i >= 1;
        var u := t[1..];
        assert QuoteRun(u, i - 1, j - 1) by {
          assert forall k :: i - 1 <= k < j - 1 ==> u[k] == t[k + 1];
          assert i - 1 == 0 || u[i - 2] == t[i - 1];
          assert j - 1 == |u| || u[j - 1] == t[j];
        }
        PairedRunsEven(u, i - 1, j - 1);
      } else {
        var u := t[2..];
        assert i == 0 || i >= 2;
        assert j >= 2;
        var i' := if i == 0 then 0 else i - 2;
        assert QuoteRun(u, i', j - 2) by {
          assert forall k :: i' <= k < j - 2 ==> u[k] == t[k + 2];
          assert i' == 0 || u[i' - 1] == t[i - 1];
          assert j - 2 == |u| || u[j - 2] == t[j];
        }
        PairedRunsEven(u, i', j - 2);
      }
    }
  }

  lemma {:induction false} QuoteFreePrefixPaired(a: string, rest: string)
    requires '\'' !in a && QuotesPaired(rest)
    ensures QuotesPaired(a + rest)
    decreases |a|
  {
    if a != [] {
      assert (a + rest)[1..] == a[1..] + rest;
      QuoteFreePrefixPaired(a[1..], rest);
    } else {
      assert a + rest == rest;
    }
  }

  lemma {:induction false} EscapeEachPaired(s: string)
    ensures QuotesPaired(EscapeEach(s))
  {
    if s != [] {
      var rest := EscapeEach(s[1..]);
      EscapeEachPaired(s[1..]);
      assert EscapeEach(s) == EscapeChar(s[0]) + rest;
      if s[0] == '\'' {
        assert (EscapeChar(s[0]) + rest)[2..] == rest;
      } else {
        QuoteFreePrefixPaired(EscapeChar(s[0]), rest);
      }
    }
  }

  /** Every maximal run of apostrophes in an escaped value has even length. */
  lemma EscapedRunsEven(s: string)
    ensures forall i, j | QuoteRun(EscapeString(s), i, j) :: (j - i) % 2 == 0
  {
    EscapeStringCharwise(s);
    EscapeEachPaired(s);
    forall i, j | QuoteRun(EscapeString(s), i, j) ensures (j - i) % 2 == 0 {
      PairedRunsEven(EscapeString(s), i, j);
    }
  }
}

=== FILE: mssql_connector.dfy ===
/**
 The connector for the `mssql_` library: the failure report of `connect`
 and the outcome of `query`, which wraps whatever handle `mssql_query`
 gave back in an `MSSQLQuery` cursor.

 The native calls (`mssql_connect`, `mssql_query`) and the framework's
 `previewWrite` are parameters; whether `databaseError` aborts is the
 policy `aborts`. This connector extends the framework's plain connector,
 so its errors carry no last-error suffix.
 */
module MSSQLConnector {
  import opened Php
  import opened MSSQLQuery

  /** The connector's one field, its connection. */
  datatype ConnectorState = ConnectorState(dbConn: Connection)

  /** What `query` hands back: nothing, or a cursor over the handle. */
  datatype QueryResult = NoResult | Wrapped(cursor: Cursor)

  const ConnectFailed := "Couldn't connect to MS SQL database"
  const QueryFailed := "Couldn't run query: "

  /** `connect`: `mssql_connect` with the server, user name and password
      parameters and a new link forced; a false connection is reported. */
  function Connect(params: map<string, Value>,
                   mssqlConnect: (Value, Value, Value, bool) -> Connection,
                   aborts: int -> bool): (o: Outcome<ConnectorState>)
    ensures
      var link := mssqlConnect(Param(params, "server"), Param(params, "username"),
                               Param(params, "password"), true);
      && (o.Raised() <==> link == NoConnection)
      && (o.Raised() ==> o.error == DbError(ConnectFailed, E_USER_ERROR))
      && (!o.Aborted? ==> o.value == ConnectorState(link))
  {
    var link := mssqlConnect(Param(params, "server"), Param(params, "username"),
                             Param(params, "password"), true);
    if link == NoConnection then Raise(DbError(ConnectFailed, E_USER_ERROR), aborts, ConnectorState(link))
    else Returned(ConnectorState(link))
  }

  /** `query` at error level `level` (0 is PHP's falsy level). */
  function Query(st: ConnectorState, sql: string, level: int,
                 preview: string -> bool,
                 execute: (string, Connection) -> Handle,
                 aborts: int -> bool): (o: Outcome<QueryResult>)
    // a previewed write returns nothing and runs nothing
    ensures preview(sql) ==> o == Returned(NoResult)
    ensures !preview(sql) ==>
      var h := execute(sql, st.dbConn);
      && (h != Failed ==> o == Returned(Wrapped(NewCursor(h))))
      && (h == Failed && level == 0 ==> o == Returned(NoResult))
      && (h == Failed && level != 0 ==>
            && o.Raised() && o.error == DbError(QueryFailed + sql, level)
            && (o.Aborted? <==> aborts(level))
            && (!o.Aborted? ==> o.value == Wrapped(NewCursor(Failed))))
    // every cursor handed back wraps exactly the handle the native call returned
    ensures !o.Aborted? && o.value.Wrapped? ==>
      !preview(sql) && o.value.cursor.handle == execute(sql, st.dbConn)
  {
    if preview(sql) then Returned(NoResult)
    else
      var h := execute(sql, st.dbConn);
      if h == Failed then
        if level == 0 then Returned(NoResult)
        else Raise(DbError(QueryFailed + sql, level), aborts, Wrapped(NewCursor(h)))
      else Returned(Wrapped(NewCursor(h)))
  }

  /** A cursor returned after a reported, non-aborting failure yields nothing:
      no rows, no count, no seek. */
  lemma FailedQueryCursorIsInert(st: ConnectorState, sql: string, level: int,
                                 preview: string -> bool,
                                 execute: (string, Connection) -> Handle,
                                 aborts: int -> bool, toCanonical: string -> string, row: int)
    requires Query(st, sql, level, preview, execute, aborts).RaisedThenReturned?
    ensures
      var c := Query(st, sql, level, preview, execute, aborts).value.cursor;
      && NextRecord(c, toCanonical).0 == None
      && NumRecords(c) == None
      && !Seek(c, row).0
  {
  }
}

=== FILE: mssql_query.dfy ===
/**
 The result cursor of the mssql_ driver: the field list captured once at
 construction, the guards against a handle that is not a result resource,
 and row assembly in `nextRecord`, which rewrites `datetime` values and
 merges columns that share a name.

 The native result is a value: its column metadata and its rows, with the
 native row pointer kept in the cursor. The `strtotime`/`date` conversion
 of a datetime text is the parameter `toCanonical`.
 */
module MSSQLQuery {
  import opened Text
  import opened Php

  /** One column's metadata, as `mssql_fetch_field` reports it. */
  datatype FieldMeta = FieldMeta(name: string, fieldType: string)

  /** A native result set: column metadata and rows of column values. */
  datatype NativeResult = NativeResult(columns: seq<FieldMeta>, rows: seq<seq<Value>>)

  /** What `mssql_query` returns: false on failure, true for a statement that
      returns no rows, or a result resource. */
  datatype Handle = Failed | NoRows | Resource(result: NativeResult)

  /** An `MSSQLQuery`: its handle, the field list, and the native row pointer. */
  datatype Cursor = Cursor(handle: Handle, fields: seq<FieldMeta>, position: nat)

  /* --------------------------------------------------------- construction */

  /** The loop `for ($i = from; $i < mssql_num_fields(...); $i++)` collecting
      `mssql_fetch_field($handle, $i)`. */
  function FetchFields(result: NativeResult, from: nat): (fields: seq<FieldMeta>)
    requires from <= |result.columns|
    ensures |fields| == |result.columns| - from
    ensures forall k :: 0 <= k < |fields| ==> fields[k] == result.columns[from + k]
    decreases |result.columns| - from
  {
    if from == |result.columns| then []
    else [result.columns[from]] + FetchFields(result, from + 1)
  }

  /** The constructor: for a result resource, one descriptor per column, in
      column order; for anything else, no fields. */
  function NewCursor(handle: Handle): (c: Cursor)
    ensures c.handle == handle && c.position == 0
    ensures handle.Resource? ==>
      && |c.fields| == |handle.result.columns|
      && forall i :: 0 <= i < |c.fields| ==> c.fields[i] == handle.result.columns[i]
    ensures !handle.Resource? ==> c.fields == []
  {
    if handle.Resource? then Cursor(handle, FetchFields(handle.result, 0), 0)
    else Cursor(handle, [], 0)
  }

  /* ----------------------------------------------------- seek, numRecords */

  /** `seek`: false without a result resource; otherwise `mssql_data_seek`,
      which moves the row pointer when the row exists. */
  function Seek(c: Cursor, row: int): (r: (bool, Cursor))
    ensures !c.handle.Resource? ==> r == (false, c)
    ensures r.0 <==> c.handle.Resource? && 0 <= row < |c.handle.result.rows|
    ensures r.0 ==> r.1 == c.(position := row)
    ensures !r.0 ==> r.1 == c
  {
    if !c.handle.Resource? then (false, c)
    else if 0 <= row < |c.handle.result.rows| then (true, c.(position := row))
    else (false, c)
  }

  /** `numRecords`: None (PHP false) without a result resource. */
  function NumRecords(c: Cursor): (n: Option<nat>)
    ensures n.None? <==> !c.handle.Resource?
    ensures n.Some? ==> n.value == |c.handle.result.rows|
  {
    if c.handle.Resource? then Some(|c.handle.result.rows|) else None
  }

  /* ------------------------------------------------------ datetime values */

  /** `/:[0-9][0-9][0-9]([ap]m)/i` matches at `s[i..i + 6]`. */
  predicate MillisAt(s: string, i: int) {
    && 0 <= i && i + 6 <= |s|
    && s[i] == ':' && IsDigit(s[i + 1]) && IsDigit(s[i + 2]) && IsDigit(s[i + 3])
    && (Lower(s[i + 4]) == 'a' || Lower(s[i + 4]) == 'p') && Lower(s[i + 5]) == 'm'
  }

  /** The pattern anchored by `$`: at the very end, or before a final newline. */
  predicate HasMillisSuffix(s: string) {
    || (|s| >= 6 && MillisAt(s, |s| - 6))
    || (|s| >= 7 && s[|s| - 1] == '\n' && MillisAt(s, |s| - 7))
  }

  /** `preg_replace('/:[0-9][0-9][0-9]([ap]m)$/i', ' \1', $s)`: the
      millisecond group before the meridiem becomes a space. */
  function StripMillis(s: string): (r: string)
    ensures HasMillisSuffix(s) <==> r != s
    ensures HasMillisSuffix(s) ==> |r| == |s| - 3
  {
    var n := |s|;
    if n >= 6 && MillisAt(s, n - 6) then s[..n - 6] + " " + s[n - 2..]
    else if n >= 7 && s[n - 1] == '\n' && MillisAt(s, n - 7) then s[..n - 7] + " " + s[n - 3..]
    else s
  }

  /** `":ddd" + am/pm` at the end becomes a space and the original am/pm text. */
  lemma StripMillisSuffix(t: string, millis: string, meridiem: string)
    requires |millis| == 3 && AllDigits(millis)
    requires |meridiem| == 2 && (Lower(meridiem[0]) == 'a' || Lower(meridiem[0]) == 'p')
    requires Lower(meridiem[1]) == 'm'
    ensures StripMillis(t + ":" + millis + meridiem) == t + " " + meridiem
  {
    var s := t + ":" + millis + meridiem;
    var n := |s|;
    assert s[n - 6] == ':' && s[n - 5..n - 2] == millis && s[n - 2..] == meridiem;
    assert MillisAt(s, n - 6);
    assert s[..n - 6] == t;
  }

  /** The engine's text `Jan  1 2012 12:00:00:000AM` loses its milliseconds. */
  lemma StripMillisExample()
    ensures StripMillis("Jan  1 2012 12:00:00:000AM") == "Jan  1 2012 12:00:00 AM"
  {
    StripMillisSuffix("Jan  1 2012 12:00:00", "000", "AM");
    assert "Jan  1 2012 12:00:00" + ":" + "000" + "AM" == "Jan  1 2012 12:00:00:000AM";
    assert "Jan  1 2012 12:00:00" + " " + "AM" == "Jan  1 2012 12:00:00 AM";
  }

  /** One cell of `nextRecord`: a truthy value of a column typed exactly
      `datetime` is stripped and converted; every other value passes through. */
  function DecodeValue(field: FieldMeta, value: Value, toCanonical: string -> string): (v: Value)
    ensures field.fieldType == "datetime" && Truthy(value) ==>
              v == Str(toCanonical(StripMillis(ToString(value))))
    ensures !(field.fieldType == "datetime" && Truthy(value)) ==> v == value
  {
    if field.fieldType == "datetime" && Truthy(value)
    then Str(toCanonical(StripMillis(ToString(value))))
    else value
  }

  /* ------------------------------------------------------- row assembly */

  /** `$this->fields[$i]`; past the field list it is null, whose name reads as
      the key "" and whose type is not `datetime`. */
  function FieldAt(fields: seq<FieldMeta>, i: nat): FieldMeta {
    if i < |fields| then fields[i] else FieldMeta("", "")
  }

  /** PHP `isset($data[$name])`: present and not null. */
  predicate SlotSet(data: OrderedMap<Value>, name: string) {
    Lookup(data, name).Some? && Lookup(data, name).value != Null
  }

  /** `$data` after the loop has seen the first `n` columns of `row`: a value is
      stored when it is not null, or when its slot is not yet set. */
  function MergeColumns(fields: seq<FieldMeta>, row: seq<Value>, n: nat,
                        toCanonical: string -> string): (data: OrderedMap<Value>)
    requires n <= |row|
    ensures DistinctKeys(data)
  {
    if n == 0 then []
    else
      var data := MergeColumns(fields, row, n - 1, toCanonical);
      var field := FieldAt(fields, n - 1);
      MergeInto(data, field.name, DecodeValue(field, row[n - 1], toCanonical))
  }

  /** One assignment of the loop: `$data[$name] = $value` when the value is
      not null or the slot is not yet set. Other slots never change. */
  function MergeInto(data: OrderedMap<Value>, name: string, value: Value): (r: OrderedMap<Value>)
    ensures DistinctKeys(data) ==> DistinctKeys(r)
    ensures forall k :: k != name ==> Lookup(r, k) == Lookup(data, k)
    ensures value != Null ==> Lookup(r, name) == Some(value)
    ensures value == Null && SlotSet(data, name) ==> r == data
  {
    if value != Null || !SlotSet(data, name) then Put(data, name, value) else data
  }

  /** The decoded values of the first `n` columns called `name`, in column order. */
  function ValuesNamed(fields: seq<FieldMeta>, row: seq<Value>, n: nat, name: string,
                       toCanonical: string -> string): seq<Value>
    requires n <= |row|
  {
    if n == 0 then []
    else
      ValuesNamed(fields, row, n - 1, name, toCanonical)
      + (if FieldAt(fields, n - 1).name == name
         then [DecodeValue(FieldAt(fields, n - 1), row[n - 1], toCanonical)] else [])
  }

  /** The last non-null value of a list, null if there is none. */
  function LastNonNull(vs: seq<Value>): Value {
    if vs == [] then Null
    else if vs[|vs| - 1] != Null then vs[|vs| - 1]
    else LastNonNull(vs[..|vs| - 1])
  }

  /** The last non-null value is null exactly when every value is null, so a
      null never hides an earlier non-null value. */
  lemma {:induction false} LastNonNullIsNull(vs: seq<Value>)
    ensures LastNonNull(vs) == Null <==> forall i :: 0 <= i < |vs| ==> vs[i] == Null
  {
    if vs != [] && vs[|vs| - 1] == Null {
      var front := vs[..|vs| - 1];
      LastNonNullIsNull(front);
      assert forall i :: 0 <= i < |front| ==> front[i] == vs[i];
    }
  }

  /** Columns that share a name end in one slot holding the last non-null value
      among them, or null if all are null; a name no column has gets no slot. */
  lemma {:induction false} MergeColumnsSlot(fields: seq<FieldMeta>, row: seq<Value>, n: nat,
                                            name: string, toCanonical: string -> string)
    requires n <= |row|
    ensures
      var named := ValuesNamed(fields, row, n, name, toCanonical);
      Lookup(MergeColumns(fields, row, n, toCanonical), name)
      == if named == [] then None else Some(LastNonNull(named))
  {
    if n > 0 {
      MergeColumnsSlot(fields, row, n - 1, name, toCanonical);
      var data := MergeColumns(fields, row, n - 1, toCanonical);
      var field := FieldAt(fields, n - 1);
      var value := DecodeValue(field, row[n - 1], toCanonical);
      var named := ValuesNamed(fields, row, n - 1, name, toCanonical);
      assert MergeColumns(fields, row, n, toCanonical)
          == MergeInto(data, field.name, value);
      if field.name == name {
        assert ValuesNamed(fields, row, n, name, toCanonical) == named + [value];
        MergeStep(data, name, value, named);
      } else {
        assert ValuesNamed(fields, row, n, name, toCanonical) == named + [];
        assert named + [] == named;
      }
    }
  }

  /** One column named `name` merged into a slot that holds the last non-null
      value of the earlier ones. */
  lemma MergeStep(data: OrderedMap<Value>, name: string, value: Value, named: seq<Value>)
    requires Lookup(data, name) == if named == [] then None else Some(LastNonNull(named))
    ensures Lookup(MergeInto(data, name, value), name) == Some(LastNonNull(named + [value]))
  {
    var named' := named + [value];
    assert named'[..|named'| - 1] == named;
  }

  /** The distinct names of the first `n` columns, in order of first appearance. */
  function ColumnNames(fields: seq<FieldMeta>, n: nat): seq<string> {
    if n == 0 then []
    else
      var names := ColumnNames(fields, n - 1);
      var name := FieldAt(fields, n - 1).name;
      if name in names then names else names + [name]
  }

  /** Some column before index `n` is called `name`. */
  predicate Occurs(fields: seq<FieldMeta>, n: nat, name: string) {
    exists j :: 0 <= j < n && FieldAt(fields, j).name == name
  }

  lemma OccursAt(fields: seq<FieldMeta>, j: nat, n: nat)
    requires j < n
    ensures Occurs(fields, n, FieldAt(fields, j).name)
  {
  }

  lemma OccursWithin(fields: seq<FieldMeta>, m: nat, n: nat, name: string)
    requires m <= n && Occurs(fields, m, name)
    ensures Occurs(fields, n, name)
  {
    var j :| 0 <= j < m && FieldAt(fields, j).name == name;
    OccursAt(fields, j, n);
  }

  /** `names` lists the names of the first `n` columns, each once, in order of
      first appearance: a name comes after another only if the other occurs
      among the columns before every column of the first. */
  predicate InFirstAppearanceOrder(fields: seq<FieldMeta>, n: nat, names: seq<string>) {
    && (forall i, i' :: 0 <= i < i' < |names| ==> names[i] != names[i'])
    && (forall j :: 0 <= j < n ==> FieldAt(fields, j).name in names)
    && (forall i :: 0 <= i < |names| ==> Occurs(fields, n, names[i]))
    && (forall i, i', j | 0 <= i < i' < |names| && 0 <= j < n && FieldAt(fields, j).name == names[i'] ::
          Occurs(fields, j, names[i]))
  }

  /** The recursive `ColumnNames` meets the declarative description. */
  lemma {:induction false} ColumnNamesOrder(fields: seq<FieldMeta>, n: nat)
    ensures InFirstAppearanceOrder(fields, n, ColumnNames(fields, n))
  {
    ColumnNamesDistinct(fields, n);
    ColumnNamesCover(fields, n);
    ColumnNamesFromColumns(fields, n);
    ColumnNamesFirstAppearance(fields, n);
  }

  lemma {:induction false} ColumnNamesDistinct(fields: seq<FieldMeta>, n: nat)
    ensures forall i, i' :: 0 <= i < i' < |ColumnNames(fields, n)| ==>
              ColumnNames(fields, n)[i] != ColumnNames(fields, n)[i']
  {
    if n > 0 {
      ColumnNamesDistinct(fields, n - 1);
    }
  }

  lemma {:induction false} ColumnNamesCover(fields: seq<FieldMeta>, n: nat)
    ensures forall j :: 0 <= j < n ==> FieldAt(fields, j).name in ColumnNames(fields, n)
  {
    if n > 0 {
      ColumnNamesCover(fields, n - 1);
      var prev := ColumnNames(fields, n - 1);
      var name := FieldAt(fields, n - 1).name;
      assert ColumnNames(fields, n) == if name in prev then prev else prev + [name];
      forall j | 0 <= j < n ensures FieldAt(fields, j).name in ColumnNames(fields, n) {
        if j < n - 1 {
          assert FieldAt(fields, j).name in prev;
        }
      }
    }
  }

  lemma {:induction false} ColumnNamesFromColumns(fields: seq<FieldMeta>, n: nat)
    ensures forall i :: 0 <= i < |ColumnNames(fields, n)| ==> Occurs(fields, n, ColumnNames(fields, n)[i])
  {
    if n > 0 {
      ColumnNamesFromColumns(fields, n - 1);
      var prev := ColumnNames(fields, n - 1);
      var name := FieldAt(fields, n - 1).name;
      var names := ColumnNames(fields, n);
      assert names == if name in prev then prev else prev + [name];
      forall i | 0 <= i < |names| ensures Occurs(fields, n, names[i]) {
        if i < |prev| {
          assert names[i] == prev[i];
          OccursWithin(fields, n - 1, n, prev[i]);
        } else {
          assert names[i] == name;
          OccursAt(fields, n - 1, n);
        }
      }
    }
  }

  lemma {:induction false} ColumnNamesFirstAppearance(fields: seq<FieldMeta>, n: nat)
    ensures forall i, i', j | 0 <= i < i' < |ColumnNames(fields, n)| && 0 <= j < n
                              && FieldAt(fields, j).name == ColumnNames(fields, n)[i'] ::
              Occurs(fields, j, ColumnNames(fields, n)[i])
  {
    if n > 0 {
      ColumnNamesFirstAppearance(fields, n - 1);
      ColumnNamesFromColumns(fields, n - 1);
      ColumnNamesCover(fields, n - 1);
      var prev := ColumnNames(fields, n - 1);
      var name := FieldAt(fields, n - 1).name;
      var names := ColumnNames(fields, n);
      assert names == if name in prev then prev else prev + [name];
      forall i, i', j | 0 <= i < i' < |names| && 0 <= j < n && FieldAt(fields, j).name == names[i']
        ensures Occurs(fields, j, names[i])
      {
        assert names[i] == prev[i];
        if i' < |prev| {
          assert names[i'] == prev[i'];
          if j == n - 1 {
            // the later name already occurred at some j0 < n - 1, and the
            // earlier one occurs before j0
            assert Occurs(fields, n - 1, prev[i']);
            var j0 :| 0 <= j0 < n - 1 && FieldAt(fields, j0).name == prev[i'];
            assert Occurs(fields, j0, prev[i]);
            OccursWithin(fields, j0, j, prev[i]);
          }
        } else {
          // the appended name occurs nowhere before n - 1
          assert names[i'] == name && name !in prev;
          assert Occurs(fields, n - 1, prev[i]);
        }
      }
    }
  }

  /** One loop step keeps the key order: a name already present keeps its
      place, and a new name is appended. */
  lemma MergeIntoKeys(data: OrderedMap<Value>, name: string, value: Value, names: seq<string>)
    requires Keys(data) == names
    ensures Keys(MergeInto(data, name, value)) == if name in names then names else names + [name]
  {
    LookupIffKey(data, name);
    if value != Null || !SlotSet(data, name) {
      PutKeys(data, name, value);
    }
  }

  /** The assembled row's keys are the column names, each once, in order of
      first appearance: a repeated name keeps the place of its first column. */
  lemma {:induction false} MergeColumnsKeys(fields: seq<FieldMeta>, row: seq<Value>, n: nat,
                                            toCanonical: string -> string)
    requires n <= |row|
    ensures Keys(MergeColumns(fields, row, n, toCanonical)) == ColumnNames(fields, n)
  {
    if n > 0 {
      MergeColumnsKeys(fields, row, n - 1, toCanonical);
      var data := MergeColumns(fields, row, n - 1, toCanonical);
      var field := FieldAt(fields, n - 1);
      var value := DecodeValue(field, row[n - 1], toCanonical);
      var names := ColumnNames(fields, n - 1);
      var next := if field.name in names then names else names + [field.name];
      assert MergeColumns(fields, row, n, toCanonical) == MergeInto(data, field.name, value);
      assert ColumnNames(fields, n) == next;
      MergeIntoKeys(data, field.name, value, names);
    }
  }


  /** The same, stated without the reference list. */
  lemma MergeColumnsKeyOrder(fields: seq<FieldMeta>, row: seq<Value>, n: nat,
                             toCanonical: string -> string)
    requires n <= |row|
    ensures InFirstAppearanceOrder(fields, n, Keys(MergeColumns(fields, row, n, toCanonical)))
  {
    MergeColumnsKeys(fields, row, n, toCanonical);
    ColumnNamesOrder(fields, n);
  }

  /* ----------------------------------------------------------- nextRecord */

  /** `nextRecord`: None (PHP false) without a result resource, past the last
      row, or on an empty row; otherwise the assembled row, and the row
      pointer moves on. The field list is only read. */
  function NextRecord(c: Cursor, toCanonical: string -> string): (r: (Option<OrderedMap<Value>>, Cursor))
    ensures r.1.handle == c.handle && r.1.fields == c.fields
    ensures !c.handle.Resource? ==> r == (None, c)
    ensures c.handle.Resource? && c.position >= |c.handle.result.rows| ==> r == (None, c)
    ensures c.handle.Resource? && c.position < |c.handle.result.rows| ==>
      && r.1.position == c.position + 1
      && (r.0.None? <==> c.handle.result.rows[c.position] == [])
  {
    if !c.handle.Resource? then (None, c)
    else if c.position >= |c.handle.result.rows| then (None, c)
    else
      var row := c.handle.result.rows[c.position];
      var next := c.(position := c.position + 1);
      if row == [] then (None, next)
      else (Some(MergeColumns(c.fields, row, |row|, toCanonical)), next)
  }

  /** A fetched row's slots: for every name, the last non-null decoded value of
      the columns with that name (null if all are null); no other slots. */
  lemma NextRecordSlots(c: Cursor, toCanonical: string -> string, name: string)
    requires NextRecord(c, toCanonical).0.Some?
    ensures
      var row := c.handle.result.rows[c.position];
      var named := ValuesNamed(c.fields, row, |row|, name, toCanonical);
      Lookup(NextRecord(c, toCanonical).0.value, name)
      == if named == [] then None else Some(LastNonNull(named))
  {
    var row := c.handle.result.rows[c.position];
    MergeColumnsSlot(c.fields, row, |row|, name, toCanonical);
  }

  /** A fetched row's keys are its column names in order of first appearance. */
  lemma NextRecordKeys(c: Cursor, toCanonical: string -> string)
    requires NextRecord(c, toCanonical).0.Some?
    ensures
      var row := c.handle.result.rows[c.position];
      InFirstAppearanceOrder(c.fields, |row|, Keys(NextRecord(c, toCanonical).0.value))
  {
    var row := c.handle.result.rows[c.position];
    MergeColumnsKeyOrder(c.fields, row, |row|, toCanonical);
  }
}

=== FILE: mssql_query_builder.dfy ===
/**
 The MSSQL query builder: pagination emulation on an engine whose paging
 primitive is `TOP n`. When either part of the parsed pair is PHP-empty,
 the builder keeps the parent's statement and injects `TOP` into its SELECT
 only when the value bound to `$limit` is non-empty; as written that value
 is the parsed offset, so a limit alone gets no `TOP` and an offset alone
 gets `TOP <offset>`. When both parts are non-empty it numbers the rows
 with `ROW_NUMBER() OVER (...)` and wraps the statement in a sub-select
 filtered by `BETWEEN`.

 The parent `DBQueryBuilder` renderers are function parameters. The
 parent's `buildSelectQuery` calls back into this builder's
 `buildOrderByFragment`; a `SelectRenderer` therefore receives, besides
 the query, the fragment that override produced.

 `BuildSelectQuery` is the code as written, including the `($offset,
 $limit)` destructuring of a `(limit, offset)` pair in `buildSelectQuery`;
 `BuildSelectQueryIntended` is the same code with the pair read in order.
 */
module MSSQLQueryBuilder {
  import opened Text
  import opened Php

  /** What `SQLSelect::getLimit()` hands the builder. */
  datatype LimitSpec =
    | NoLimit                                   // null
    | LimitArray(entries: map<string, Value>)   // array('limit' => ..., 'start' => ...)
    | LimitText(text: string)                   // "10", "10 OFFSET 20", "20,10"

  /** The parts of an `SQLSelect` this builder reads itself; FROM, WHERE,
      GROUP BY and the rest reach the SQL only through the parent renderers. */
  datatype SelectQuery = SelectQuery(
    select: OrderedMap<string>,   // alias => expression
    orderBy: OrderedMap<string>,  // column or alias => direction
    limit: LimitSpec)

  /** The pair `parseLimit` returns, `array($limit, $offset)`. */
  datatype ParsedLimit = ParsedLimit(limit: Value, offset: Value)

  /** `DBQueryBuilder::buildSelectQuery`, given the query and the ORDER BY
      fragment this builder's `buildOrderByFragment` returned for it. */
  type SelectRenderer = (SelectQuery, string) -> string

  /** `DBQueryBuilder::buildOrderByFragment`. */
  type OrderByRenderer = SelectQuery -> string

  /* ---------------------------------------------------------- parseLimit */

  const OffsetKeyword: string := "offset"

  /** `preg_match('/^([0-9]+) offset ([0-9]+)$/i', $s)` and its two groups.
      The subject is always trimmed, so `$` never meets a final newline. */
  function MatchOffsetForm(s: string): (r: Option<(string, string)>)
    ensures r.Some? ==>
      var (a, b) := r.value;
      && a != [] && AllDigits(a) && b != [] && AllDigits(b)
      && |s| == |a| + 8 + |b|
      && s[..|a|] == a && s[|a|] == ' ' && CiEq(s[|a| + 1..|a| + 7], OffsetKeyword)
      && s[|a| + 7] == ' ' && s[|a| + 8..] == b
  {
    var n := DigitPrefixLength(s);
    if 0 < n && n + 8 < |s| && s[n] == ' ' && CiEq(s[n + 1..n + 7], OffsetKeyword)
       && s[n + 7] == ' ' && AllDigits(s[n + 8..])
    then Some((s[..n], s[n + 8..]))
    else None
  }

  /** Every text of the form `digits offset digits` matches, with its two numbers. */
  lemma OffsetFormComplete(a: string, kw: string, b: string)
    requires a != [] && AllDigits(a) && b != [] && AllDigits(b)
    requires CiEq(kw, OffsetKeyword)
    ensures MatchOffsetForm(a + " " + kw + " " + b) == Some((a, b))
  {
    var s := a + " " + kw + " " + b;
    var n := DigitPrefixLength(s);
    assert s[|a|] == ' ';
    assert forall i :: 0 <= i < |a| ==> s[i] == a[i];
    assert n <= |a| by {
      assert forall i :: 0 <= i < n ==> IsDigit(s[..n][i]);
    }
    assert n == |a|;
    assert s[n + 1..n + 7] == kw;
    assert s[n + 8..] == b;
    assert s[..n] == a;
  }

  /** A match of the offset form never contains a comma. */
  lemma OffsetFormHasNoComma(s: string)
    requires MatchOffsetForm(s).Some?
    ensures ',' !in s
  {
    var (a, b) := MatchOffsetForm(s).value;
    forall i | 0 <= i < |s| ensures s[i] != ',' {
      if i < |a| {
        assert s[i] == a[i];
      } else if |a| + 1 <= i < |a| + 7 {
        var kw := s[|a| + 1..|a| + 7];
        assert kw[i - |a| - 1] == s[i];
        assert Lower(kw[i - |a| - 1]) == Lower(OffsetKeyword[i - |a| - 1]);
      } else if i >= |a| + 8 {
        assert s[i] == b[i - |a| - 8];
      }
    }
  }

  /** Trimming keeps every character that is not itself trimmed. */
  lemma TrimKeepsComma(s: string)
    requires ',' in s
    ensures ',' in Trim(s)
  {
    var k :| 0 <= k < |s| && s[k] == ',';
    var l := TrimLeft(s);
    var j := TrimLeftKeeps(s, k);
    var i := TrimRightKeeps(l, j);
    assert Trim(s)[i] == ',';
  }

  lemma TrimLeftKeeps(s: string, k: int) returns (j: int)
    requires 0 <= k < |s| && !IsTrimChar(s[k])
    ensures 0 <= j < |TrimLeft(s)| && TrimLeft(s)[j] == s[k]
  {
    var d := |s| - |TrimLeft(s)|;
    assert k >= d by {
      assert AllTrimChars(s[..d]);
    }
    j := k - d;
  }

  lemma TrimRightKeeps(s: string, k: int) returns (j: int)
    requires 0 <= k < |s| && !IsTrimChar(s[k])
    ensures 0 <= j < |TrimRight(s)| && TrimRight(s)[j] == s[k]
  {
    var r := TrimRight(s);
    assert k < |r| by {
      assert AllTrimChars(s[|r|..]);
    }
    j := k;
  }

  /** `parseLimit`: the `(limit, offset)` pair of the query's limit clause,
      defaulting to `''` and `'0'`. */
  function ParseLimit(spec: LimitSpec): ParsedLimit {
    match spec
    case LimitArray(entries) =>
      ParsedLimit(
        if IsSet(entries, "limit") then entries["limit"] else Str(""),
        if IsSet(entries, "start") then entries["start"] else Str("0"))
    case NoLimit => ParseLimitText("")  // null reads as "" in trim and explode
    case LimitText(text) => ParseLimitText(text)
  }

  /** The two textual forms of `parseLimit`: `N offset M`, else `offset,limit`. */
  function ParseLimitText(text: string): ParsedLimit {
    match MatchOffsetForm(Trim(text))
    case Some((limit, offset)) => ParsedLimit(Str(limit), Str(offset))
    case None =>
      var bits := Explode(text, ',');
      if |bits| > 1 then ParsedLimit(Str(bits[1]), Str(bits[0]))
      else ParsedLimit(Str(bits[0]), Str("0"))
  }

  /** No limit, or an empty one, parses to limit `''` and offset `'0'`. */
  lemma ParseLimitDefaults()
    ensures ParseLimit(NoLimit) == ParsedLimit(Str(""), Str("0"))
    ensures ParseLimit(LimitText("")) == ParsedLimit(Str(""), Str("0"))
  {
    assert Explode("", ',') == [[]];
  }

  /** The array form takes `limit` and `start`, each only when set. */
  lemma ParseLimitArray(entries: map<string, Value>)
    ensures ParseLimit(LimitArray(entries)).limit
            == (if IsSet(entries, "limit") then entries["limit"] else Str(""))
    ensures ParseLimit(LimitArray(entries)).offset
            == (if IsSet(entries, "start") then entries["start"] else Str("0"))
  {
  }

  /** `N offset M` (any case, any surrounding trim characters) gives limit N, offset M. */
  lemma ParseLimitOffsetForm(lead: string, a: string, kw: string, b: string, trail: string)
    requires AllTrimChars(lead) && AllTrimChars(trail)
    requires a != [] && AllDigits(a) && b != [] && AllDigits(b)
    requires CiEq(kw, OffsetKeyword)
    ensures ParseLimit(LimitText(lead + (a + " " + kw + " " + b) + trail))
            == ParsedLimit(Str(a), Str(b))
  {
    var core := a + " " + kw + " " + b;
    assert core[0] == a[0] && core[|core| - 1] == b[|b| - 1];
    TrimRecoversCore(lead, core, trail);
    OffsetFormComplete(a, kw, b);
  }

  /** `offset,limit`: the first piece is the offset, the second the limit,
      and further pieces are ignored. */
  lemma ParseLimitCommaForm(offset: string, limit: string, more: seq<string>)
    requires ',' !in offset && ',' !in limit
    requires forall i :: 0 <= i < |more| ==> ',' !in more[i]
    ensures ParseLimit(LimitText(Join([offset, limit] + more, ',')))
            == ParsedLimit(Str(limit), Str(offset))
  {
    var parts := [offset, limit] + more;
    var text := Join(parts, ',');
    CommaFormPieces(offset, limit, more);
    TrimKeepsComma(text);
    if MatchOffsetForm(Trim(text)).Some? {
      OffsetFormHasNoComma(Trim(text));
      assert false;
    }
  }

  lemma CommaFormPieces(offset: string, limit: string, more: seq<string>)
    requires ',' !in offset && ',' !in limit
    requires forall i :: 0 <= i < |more| ==> ',' !in more[i]
    ensures Explode(Join([offset, limit] + more, ','), ',') == [offset, limit] + more
  {
    var parts := [offset, limit] + more;
    CommaFree(offset, limit, more);
    ExplodeJoin(parts, ',');
  }

  lemma CommaFree(offset: string, limit: string, more: seq<string>)
    requires ',' !in offset && ',' !in limit
    requires forall i :: 0 <= i < |more| ==> ',' !in more[i]
    ensures forall i :: 0 <= i < |[offset, limit] + more| ==> ',' !in ([offset, limit] + more)[i]
  {
    var parts := [offset, limit] + more;
    forall i | 0 <= i < |parts| ensures ',' !in parts[i] {
      if i >= 2 {
        assert parts[i] == more[i - 2];
      }
    }
  }

  /** Text without a comma that is not of the offset form is all limit; the offset stays `'0'`. */
  lemma ParseLimitBareForm(text: string)
    requires ',' !in text
    requires MatchOffsetForm(Trim(text)).None?
    ensures ParseLimit(LimitText(text)) == ParsedLimit(Str(text), Str("0"))
  {
    JoinExplode(text, ',');
  }

  /* ---------------------------------------------------------- path choice */

  /** Both parsed components non-empty: the windowed path. The test reads
      the pair in swapped order, which is harmless because it is symmetric. */
  predicate Windowed(p: ParsedLimit) {
    !Empty(p.limit) && !Empty(p.offset)
  }

  /** `buildOrderByFragment`: empty on the windowed path, which orders inside
      the window instead, and the parent's fragment otherwise. */
  function BuildOrderByFragment(q: SelectQuery, parentOrderBy: OrderByRenderer): (fragment: string)
    ensures Windowed(ParseLimit(q.limit)) ==> fragment == ""
    ensures !Windowed(ParseLimit(q.limit)) ==> fragment == parentOrderBy(q)
  {
    var p := ParseLimit(q.limit);
    var (offset, limit) := (p.limit, p.offset);
    if Empty(offset) || Empty(limit) then parentOrderBy(q) else ""
  }

  /* --------------------------------------------------- SELECT injection */

  /** Length of the match of `/^(SELECT (DISTINCT)?)/i` in `sql`; 0 when none. */
  function SelectPrefixLength(sql: string): (k: nat)
    ensures k <= |sql|
    ensures k > 0 <==> CiStartsWith(sql, "SELECT ")
    ensures k == 15 <==> CiStartsWith(sql, "SELECT DISTINCT")
    ensures k == 0 || k == 7 || k == 15
  {
    if CiStartsWith(sql, "SELECT DISTINCT") then
      assert CiStartsWith(sql, "SELECT ") by {
        forall i | 0 <= i < 7 ensures Lower(sql[..7][i]) == Lower("SELECT "[i]) {
          assert sql[..7][i] == sql[..15][i];
          assert "SELECT "[i] == "SELECT DISTINCT"[i];
        }
      }
      15
    else if CiStartsWith(sql, "SELECT ") then 7
    else 0
  }

  /** A `preg_replace` replacement is copied literally only when it holds no
      `$` or `\`, the characters that introduce back-references. */
  predicate LiteralReplacement(text: string) {
    '$' !in text && '\\' !in text
  }

  /** `' TOP ' . $limit`, the text injected on the simple path. */
  function TopText(limit: Value): (text: string)
    requires LiteralReplacement(ToString(limit))
    ensures LiteralReplacement(text)
  {
    assert LiteralReplacement(" TOP ");
    " TOP " + ToString(limit)
  }

  /** The row-number column injected on the windowed path. */
  function RowNumberText(clause: string): (text: string)
    requires LiteralReplacement(clause)
    ensures LiteralReplacement(text)
  {
    assert LiteralReplacement(" ROW_NUMBER() OVER (");
    assert LiteralReplacement(") AS Number, ");
    " ROW_NUMBER() OVER (" + clause + ") AS Number, "
  }

  /** `preg_replace('/^(SELECT (DISTINCT)?)/i', '${1}' . text, sql)`. */
  function InjectAfterSelect(sql: string, text: string): (r: string)
    requires LiteralReplacement(text)
    ensures SelectPrefixLength(sql) == 0 ==> r == sql
    ensures SelectPrefixLength(sql) > 0 ==>
      var k := SelectPrefixLength(sql);
      && |r| == |sql| + |text|
      && r[..k] == sql[..k]
      && r[k..k + |text|] == text
      && r[..k] + r[k + |text|..] == sql
  {
    var k := SelectPrefixLength(sql);
    if k == 0 then sql
    else
      var r := sql[..k] + text + sql[k..];
      assert r[..k] == sql[..k];
      assert r[k..k + |text|] == text;
      assert r[k + |text|..] == sql[k..];
      r
  }

  /* ------------------------------------------------------ window clause */

  /** `$selects[str_replace('"', '', $field)]`; a missing alias reads as null,
      which as an array key is "". */
  function SortColumnExpression(selects: OrderedMap<string>, field: string): string {
    match Lookup(selects, StripDoubleQuotes(field))
    case Some(expression) => expression
    case None => ""
  }

  /** The loop over the order-by: every `_SortColumn` entry is unset and its
      select expression put in its place. The loop walks a snapshot of the
      original (PHP `foreach` by value) while it edits `current`. */
  function RewriteSortColumns(snapshot: OrderedMap<string>, i: nat, current: OrderedMap<string>,
                              selects: OrderedMap<string>): OrderedMap<string>
    requires i <= |snapshot|
    decreases |snapshot| - i
  {
    if i == |snapshot| then current
    else
      var field := snapshot[i].key;
      var next :=
        if Contains(field, "_SortColumn")
        then Put(Remove(current, field), SortColumnExpression(selects, field), snapshot[i].value)
        else current;
      RewriteSortColumns(snapshot, i + 1, next, selects)
  }

  /** Once non-empty, the order-by stays non-empty: a rewrite step always re-inserts. */
  lemma {:induction false} RewriteStaysNonEmpty(snapshot: OrderedMap<string>, i: nat,
                                                current: OrderedMap<string>, selects: OrderedMap<string>)
    requires i <= |snapshot|
    requires |current| > 0
    ensures |RewriteSortColumns(snapshot, i, current, selects)| > 0
    decreases |snapshot| - i
  {
    if i < |snapshot| {
      var field := snapshot[i].key;
      var next :=
        if Contains(field, "_SortColumn")
        then Put(Remove(current, field), SortColumnExpression(selects, field), snapshot[i].value)
        else current;
      RewriteStaysNonEmpty(snapshot, i + 1, next, selects);
    }
  }

  /** The rewrite leaves the order-by non-empty exactly when it was. */
  lemma RewritePreservesEmptiness(orderBy: OrderedMap<string>, selects: OrderedMap<string>)
    ensures |RewriteSortColumns(orderBy, 0, orderBy, selects)| > 0 <==> |orderBy| > 0
  {
    if |orderBy| > 0 {
      RewriteStaysNonEmpty(orderBy, 0, orderBy, selects);
    }
  }

  /** `reset($selects)`: the first select expression, or false (text "") if none. */
  function FirstSelect(select: OrderedMap<string>): string {
    if select == [] then "" else select[0].value
  }

  /** The ordering inside `ROW_NUMBER() OVER (...)`: the parent's fragment when
      the query has an order-by (the rewritten copy only decides emptiness),
      else the first select expression. */
  function WindowOrderClause(q: SelectQuery, parentOrderBy: OrderByRenderer): (clause: string)
    ensures |q.orderBy| > 0 ==> clause == parentOrderBy(q)
    ensures |q.orderBy| == 0 ==> clause == "ORDER BY " + FirstSelect(q.select)
  {
    var orderby := RewriteSortColumns(q.orderBy, 0, q.orderBy, q.select);
    RewritePreservesEmptiness(q.orderBy, q.select);
    if |orderby| > 0 then parentOrderBy(q) else "ORDER BY " + FirstSelect(q.select)
  }

  /* ---------------------------------------------------- buildSelectQuery */

  /** The sub-select keeping row numbers `begin..end` of `sql`. */
  function NumberedWindow(sql: string, begin: int, end: int): string {
    "SELECT * FROM (" + sql + ") AS Numbered WHERE Number BETWEEN "
    + IntToString(begin) + " AND " + IntToString(end) + " ORDER BY Number"
  }

  /** `$a + 1` and `$a + $b` are integer additions that stay integers. */
  predicate IntegerBounds(a: Value, b: Value) {
    && IsIntegral(a) && IsIntegral(b)
    && NoOverflow(IntegralValue(a) + 1)
    && NoOverflow(IntegralValue(a) + IntegralValue(b))
  }

  /** What the body of `buildSelectQuery` needs of the values bound to
      `$offset` and `$limit`: literal replacement texts, integer arithmetic. */
  predicate Renderable(q: SelectQuery, parentOrderBy: OrderByRenderer, offset: Value, limit: Value) {
    if Empty(offset) || Empty(limit) then LiteralReplacement(ToString(limit))
    else LiteralReplacement(WindowOrderClause(q, parentOrderBy)) && IntegerBounds(offset, limit)
  }

  /** The body of `buildSelectQuery` once `$offset` and `$limit` are bound. */
  function RenderSelect(q: SelectQuery, offset: Value, limit: Value,
                        parentSelect: SelectRenderer, parentOrderBy: OrderByRenderer): string
    requires Renderable(q, parentOrderBy, offset, limit)
  {
    if Empty(offset) || Empty(limit) then
      var sql := parentSelect(q, BuildOrderByFragment(q, parentOrderBy));
      if !Empty(limit) then InjectAfterSelect(sql, TopText(limit)) else sql
    else
      var clause := WindowOrderClause(q, parentOrderBy);
      var sql := parentSelect(q, BuildOrderByFragment(q, parentOrderBy));
      var numbered := InjectAfterSelect(sql, RowNumberText(clause));
      NumberedWindow(numbered, IntegralValue(offset) + 1, IntegralValue(offset) + IntegralValue(limit))
  }

  lemma RenderSelectSimple(q: SelectQuery, offset: Value, limit: Value,
                           parentSelect: SelectRenderer, parentOrderBy: OrderByRenderer)
    requires Renderable(q, parentOrderBy, offset, limit)
    requires Empty(offset) || Empty(limit)
    ensures
      var sql := parentSelect(q, BuildOrderByFragment(q, parentOrderBy));
      RenderSelect(q, offset, limit, parentSelect, parentOrderBy)
      == if Empty(limit) then sql else InjectAfterSelect(sql, TopText(limit))
  {
  }

  lemma RenderSelectWindowed(q: SelectQuery, offset: Value, limit: Value,
                             parentSelect: SelectRenderer, parentOrderBy: OrderByRenderer)
    requires Renderable(q, parentOrderBy, offset, limit)
    requires !Empty(offset) && !Empty(limit)
    ensures
      var numbered := InjectAfterSelect(parentSelect(q, BuildOrderByFragment(q, parentOrderBy)),
                                        RowNumberText(WindowOrderClause(q, parentOrderBy)));
      RenderSelect(q, offset, limit, parentSelect, parentOrderBy)
      == NumberedWindow(numbered, IntegralValue(offset) + 1, IntegralValue(offset) + IntegralValue(limit))
  {
  }

  /** `buildSelectQuery` as written: the `(limit, offset)` pair is bound to
      `($offset, $limit)`. */
  function BuildSelectQuery(q: SelectQuery, parentSelect: SelectRenderer,
                            parentOrderBy: OrderByRenderer): string
    requires var p := ParseLimit(q.limit); Renderable(q, parentOrderBy, p.limit, p.offset)
  {
    var p := ParseLimit(q.limit);
    RenderSelect(q, p.limit, p.offset, parentSelect, parentOrderBy)
  }

  /** `buildSelectQuery` with the pair bound in order, `($limit, $offset)`. */
  function BuildSelectQueryIntended(q: SelectQuery, parentSelect: SelectRenderer,
                                    parentOrderBy: OrderByRenderer): string
    requires var p := ParseLimit(q.limit); Renderable(q, parentOrderBy, p.offset, p.limit)
  {
    var p := ParseLimit(q.limit);
    RenderSelect(q, p.offset, p.limit, parentSelect, parentOrderBy)
  }

  /** Simple path: the parent renders the statement with its own ORDER BY;
      `TOP v` goes in after the SELECT keywords only when v, the parsed
      OFFSET (bound to `$limit`), is non-empty; nothing else changes. */
  lemma SimplePath(q: SelectQuery, parentSelect: SelectRenderer, parentOrderBy: OrderByRenderer)
    requires var p := ParseLimit(q.limit); Renderable(q, parentOrderBy, p.limit, p.offset)
    requires !Windowed(ParseLimit(q.limit))
    ensures
      var p := ParseLimit(q.limit);
      var base := parentSelect(q, parentOrderBy(q));
      var sql := BuildSelectQuery(q, parentSelect, parentOrderBy);
      var top := " TOP " + ToString(p.offset);
      var k := SelectPrefixLength(base);
      && (Empty(p.offset) || k == 0 ==> sql == base)
      && (!Empty(p.offset) && k > 0 ==>
            sql[..k] == base[..k] && sql[k..k + |top|] == top && sql[..k] + sql[k + |top|..] == base)
  {
  }

  /** Intended simple path: `TOP n` carries the parsed LIMIT, and goes in
      exactly when that limit is non-empty. */
  lemma IntendedSimplePath(q: SelectQuery, parentSelect: SelectRenderer, parentOrderBy: OrderByRenderer)
    requires var p := ParseLimit(q.limit); Renderable(q, parentOrderBy, p.offset, p.limit)
    requires !Windowed(ParseLimit(q.limit))
    ensures
      var p := ParseLimit(q.limit);
      var base := parentSelect(q, parentOrderBy(q));
      var sql := BuildSelectQueryIntended(q, parentSelect, parentOrderBy);
      var top := " TOP " + ToString(p.limit);
      var k := SelectPrefixLength(base);
      && (Empty(p.limit) || k == 0 ==> sql == base)
      && (!Empty(p.limit) && k > 0 ==>
            sql[..k] == base[..k] && sql[k..k + |top|] == top && sql[..k] + sql[k + |top|..] == base)
  {
  }

  /** Windowed path: the parent renders the statement with an EMPTY order-by
      fragment, the ordering appears once inside `ROW_NUMBER() OVER (...)`,
      and the window runs from (parsed limit + 1) to (limit + offset). */
  lemma WindowedPath(q: SelectQuery, parentSelect: SelectRenderer, parentOrderBy: OrderByRenderer)
    requires var p := ParseLimit(q.limit); Renderable(q, parentOrderBy, p.limit, p.offset)
    requires Windowed(ParseLimit(q.limit))
    ensures
      var p := ParseLimit(q.limit);
      var clause := WindowOrderClause(q, parentOrderBy);
      var numbered := InjectAfterSelect(parentSelect(q, ""), RowNumberText(clause));
      BuildSelectQuery(q, parentSelect, parentOrderBy)
      == NumberedWindow(numbered, IntegralValue(p.limit) + 1, IntegralValue(p.limit) + IntegralValue(p.offset))
  {
  }

  /** The parent's ORDER BY and the window's ordering are never both emitted:
      the fragment handed to the parent is empty exactly on the windowed path. */
  lemma OrderByEmittedOnce(q: SelectQuery, parentOrderBy: OrderByRenderer)
    requires parentOrderBy(q) != ""
    ensures BuildOrderByFragment(q, parentOrderBy) == "" <==> Windowed(ParseLimit(q.limit))
  {
  }

  /* ------------------------------------------------------------ finding */

  /** As written, a plain limit never limits: with a limit and no offset the
      statement is the parent's, without `TOP`. */
  lemma PlainLimitIsDropped(q: SelectQuery, parentSelect: SelectRenderer, parentOrderBy: OrderByRenderer)
    requires var p := ParseLimit(q.limit); Renderable(q, parentOrderBy, p.limit, p.offset)
    requires !Empty(ParseLimit(q.limit).limit) && Empty(ParseLimit(q.limit).offset)
    ensures BuildSelectQuery(q, parentSelect, parentOrderBy) == parentSelect(q, parentOrderBy(q))
  {
  }

  /** The concrete case: `LIMIT 10` on a SELECT gets no `TOP`, while the
      intended code gives `TOP 10`. */
  lemma PlainLimitCounterexample(q: SelectQuery, parentSelect: SelectRenderer, parentOrderBy: OrderByRenderer)
    requires q.limit == LimitText("10")
    requires CiStartsWith(parentSelect(q, parentOrderBy(q)), "SELECT ")
    ensures var p := ParseLimit(q.limit); Renderable(q, parentOrderBy, p.limit, p.offset)
    ensures var p := ParseLimit(q.limit); Renderable(q, parentOrderBy, p.offset, p.limit)
    ensures BuildSelectQuery(q, parentSelect, parentOrderBy) == parentSelect(q, parentOrderBy(q))
    ensures BuildSelectQueryIntended(q, parentSelect, parentOrderBy) != parentSelect(q, parentOrderBy(q))
  {
    TenIsPlain();
    ParseBareTen();
    PlainLimitGap(q, parentSelect, parentOrderBy, "10");
  }

  /** Any plain limit `n` other than "" and "0": dropped as written, injected
      as `TOP n` when the pair is read in order. */
  lemma PlainLimitGap(q: SelectQuery, parentSelect: SelectRenderer, parentOrderBy: OrderByRenderer, n: string)
    requires ParseLimit(q.limit) == ParsedLimit(Str(n), Str("0"))
    requires n != "" && n != "0" && LiteralReplacement(n)
    requires CiStartsWith(parentSelect(q, parentOrderBy(q)), "SELECT ")
    ensures Renderable(q, parentOrderBy, Str(n), Str("0"))
    ensures Renderable(q, parentOrderBy, Str("0"), Str(n))
    ensures BuildSelectQuery(q, parentSelect, parentOrderBy) == parentSelect(q, parentOrderBy(q))
    ensures BuildSelectQueryIntended(q, parentSelect, parentOrderBy) != parentSelect(q, parentOrderBy(q))
  {
    var base := parentSelect(q, parentOrderBy(q));
    assert LiteralReplacement(ToString(Str("0")));
    assert BuildOrderByFragment(q, parentOrderBy) == parentOrderBy(q);
    RenderSelectSimple(q, Str(n), Str("0"), parentSelect, parentOrderBy);
    RenderSelectSimple(q, Str("0"), Str(n), parentSelect, parentOrderBy);
    var top := TopText(Str(n));
    assert |InjectAfterSelect(base, top)| == |base| + |top|;
  }

  /** `10` is a non-empty limit text that `preg_replace` copies literally. */
  lemma TenIsPlain()
    ensures "10" != "" && "10" != "0" && LiteralReplacement("10")
  {
  }

  lemma ParseBareTen()
    ensures ParseLimit(LimitText("10")) == ParsedLimit(Str("10"), Str("0"))
  {
    TrimRecoversCore([], "10", []);
    assert [] + "10" + [] == "10";
    assert MatchOffsetForm("10").None?;
    ParseLimitBareForm("10");
  }

  /** Rows of an ordered result whose 1-based row number lies in `lo..hi`:
      what `WHERE Number BETWEEN lo AND hi ORDER BY Number` keeps. */
  function WindowRows<T>(rows: seq<T>, lo: int, hi: int): seq<T> {
    if rows == [] then []
    else WindowRows(rows[..|rows| - 1], lo, hi) + (if lo <= |rows| <= hi then [rows[|rows| - 1]] else [])
  }

  function Min(a: int, b: int): int {
    if a <= b then a else b
  }

  /** A BETWEEN window over row numbers is a contiguous slice of the rows. */
  lemma {:induction false} WindowRowsSlice<T>(rows: seq<T>, lo: int, hi: int)
    requires 1 <= lo && lo - 1 <= hi
    ensures WindowRows(rows, lo, hi) == rows[Min(lo - 1, |rows|)..Min(hi, |rows|)]
  {
    if rows != [] {
      var n := |rows|;
      var init := rows[..n - 1];
      WindowRowsSlice(init, lo, hi);
      if lo <= n <= hi {
        assert init[lo - 1..n - 1] + [rows[n - 1]] == rows[lo - 1..n];
      } else if n < lo {
        assert rows[n..n] == [];
      } else {
        assert init[lo - 1..hi] == rows[lo - 1..hi];
      }
    }
  }

  /** The page `OFFSET offset LIMIT limit` of an ordered result. */
  function Page<T>(rows: seq<T>, offset: nat, limit: nat): seq<T> {
    rows[Min(offset, |rows|)..Min(offset + limit, |rows|)]
  }

  /** Intended: the window `offset + 1 .. offset + limit` is exactly the page. */
  lemma IntendedWindowIsPage<T>(rows: seq<T>, offset: nat, limit: nat)
    ensures WindowRows(rows, offset + 1, offset + limit) == Page(rows, offset, limit)
  {
    WindowRowsSlice(rows, offset + 1, offset + limit);
  }

  /** With the pair read in order, the windowed path numbers rows from
      offset + 1 to offset + limit, and so returns exactly the page. */
  lemma IntendedWindowedPath(q: SelectQuery, parentSelect: SelectRenderer, parentOrderBy: OrderByRenderer)
    requires var p := ParseLimit(q.limit); Renderable(q, parentOrderBy, p.offset, p.limit)
    requires Windowed(ParseLimit(q.limit))
    ensures
      var p := ParseLimit(q.limit);
      var clause := WindowOrderClause(q, parentOrderBy);
      var numbered := InjectAfterSelect(parentSelect(q, ""), RowNumberText(clause));
      BuildSelectQueryIntended(q, parentSelect, parentOrderBy)
      == NumberedWindow(numbered, IntegralValue(p.offset) + 1, IntegralValue(p.offset) + IntegralValue(p.limit))
  {
  }

  /** As written, `limit 10, start 20` numbers rows 11..30: twenty rows, ten of
      them before the offset, where the page is rows 21..30. */
  lemma ShiftedWindowCounterexample(q: SelectQuery, parentSelect: SelectRenderer,
                                    parentOrderBy: OrderByRenderer, rows: seq<int>)
    requires q.limit == LimitArray(map["limit" := Int(10), "start" := Int(20)])
    requires LiteralReplacement(WindowOrderClause(q, parentOrderBy))
    requires |rows| == 30
    ensures var p := ParseLimit(q.limit); Renderable(q, parentOrderBy, p.limit, p.offset)
    ensures
      var numbered := InjectAfterSelect(parentSelect(q, ""), RowNumberText(WindowOrderClause(q, parentOrderBy)));
      BuildSelectQuery(q, parentSelect, parentOrderBy) == NumberedWindow(numbered, 11, 30)
    ensures WindowRows(rows, 11, 30) != Page(rows, 20, 10)
  {
    var p := ParseLimit(q.limit);
    assert p == ParsedLimit(Int(10), Int(20));
    assert IntegralValue(p.limit) == 10 && IntegralValue(p.offset) == 20;
    assert BuildOrderByFragment(q, parentOrderBy) == "";
    RenderSelectWindowed(q, p.limit, p.offset, parentSelect, parentOrderBy);
    ShiftedRows(rows);
  }

  lemma ShiftedRows(rows: seq<int>)
    requires |rows| == 30
    ensures WindowRows(rows, 11, 30) != Page(rows, 20, 10)
  {
    WindowRowsSlice(rows, 11, 30);
    assert |WindowRows(rows, 11, 30)| == 20;
  }
}

=== FILE: php.dfy ===
/**
 The slice of PHP's value semantics the driver depends on: loosely typed
 scalars with `empty()`, truthiness and string conversion; integer
 arithmetic on numeric strings; ordered arrays keyed by strings; and the
 error-raising path through the framework's `databaseError`.
 */
module Php {
  import opened Text

  datatype Option<+T> = None | Some(value: T)

  /** A PHP scalar as the driver sees one (floats and resources are not needed here). */
  datatype Value = Null | Bool(b: bool) | Int(i: int) | Str(s: string)

  const PHP_INT_MAX: int := 0x7FFF_FFFF_FFFF_FFFF
  const PHP_INT_MIN: int := -0x8000_0000_0000_0000

  /** The default level of `databaseError`, PHP's `E_USER_ERROR`. */
  const E_USER_ERROR: int := 256

  /* ------------------------------------------------ empty, truthy, string */

  /** PHP `empty($v)`: null, false, 0, "" and "0" are empty. */
  predicate Empty(v: Value) {
    match v
    case Null => true
    case Bool(b) => !b
    case Int(i) => i == 0
    case Str(s) => s == "" || s == "0"
  }

  /** PHP truthiness (`if ($v)`), the negation of `empty` on scalars. */
  predicate Truthy(v: Value) {
    !Empty(v)
  }

  /** PHP string conversion, as used by `.` concatenation and string functions. */
  function ToString(v: Value): string {
    match v
    case Null => ""
    case Bool(b) => if b then "1" else ""
    case Int(i) => IntToString(i)
    case Str(s) => s
  }

  /* ------------------------------------------------- integer arithmetic */

  /** Whitespace PHP accepts before a numeric string: space, tab, LF, CR, VT, FF. */
  predicate IsNumericSpace(c: char) {
    c == ' ' || c == '\t' || c == '\n' || c == '\r' || c == '\U{B}' || c == '\U{C}'
  }

  function SkipNumericSpace(s: string): (r: string)
    ensures |r| <= |s| && r == s[|s| - |r|..]
    ensures r == [] || !IsNumericSpace(r[0])
  {
    if s != [] && IsNumericSpace(s[0]) then SkipNumericSpace(s[1..]) else s
  }

  /** Operands `+` turns into integers without coercion: PHP ints, and strings
      of optional leading whitespace followed by decimal digits whose value
      fits a PHP int (a longer digit string is read as a float). */
  predicate IsIntegral(v: Value) {
    || (v.Int? && PHP_INT_MIN <= v.i <= PHP_INT_MAX)
    || (&& v.Str? && SkipNumericSpace(v.s) != [] && AllDigits(SkipNumericSpace(v.s))
        && DigitsValue(SkipNumericSpace(v.s)) <= PHP_INT_MAX)
  }

  /** The integer `+` reads from an integral operand. */
  function IntegralValue(v: Value): int
    requires IsIntegral(v)
  {
    if v.Int? then v.i else DigitsValue(SkipNumericSpace(v.s))
  }

  /** `$a + $b` stays an integer (does not overflow to a float). */
  predicate NoOverflow(n: int) {
    PHP_INT_MIN <= n <= PHP_INT_MAX
  }

  /* ------------------------------------------------------ ordered arrays */

  /** One key/value pair of a PHP array with string keys. */
  datatype Entry<V> = Entry(key: string, value: V)

  /** A PHP array: insertion-ordered pairs, looked up by key. */
  type OrderedMap<V> = seq<Entry<V>>

  predicate DistinctKeys<V>(m: OrderedMap<V>) {
    forall i, j :: 0 <= i < j < |m| ==> m[i].key != m[j].key
  }

  /** `$m[$k]` when it exists. */
  function Lookup<V>(m: OrderedMap<V>, k: string): Option<V> {
    if m == [] then None
    else if m[0].key == k then Some(m[0].value)
    else Lookup(m[1..], k)
  }

  /** `$m[$k] = $v`: overwrite in place if the key exists, else append. */
  function Put<V>(m: OrderedMap<V>, k: string, v: V): (r: OrderedMap<V>)
    ensures |r| > 0
    ensures Lookup(r, k) == Some(v)
    ensures forall k' :: k' != k ==> Lookup(r, k') == Lookup(m, k')
    ensures DistinctKeys(m) ==> DistinctKeys(r)
    ensures forall i :: 0 <= i < |r| ==> r[i].key == k || Lookup(m, r[i].key).Some?
  {
    if m == [] then [Entry(k, v)]
    else if m[0].key == k then
      var r := [Entry(k, v)] + m[1..];
      forall i | 0 < i < |r| ensures Lookup(m, r[i].key).Some? {
        assert r[i] == m[i];
        LookupAtIndex(m, i);
      }
      r
    else
      var tail := Put(m[1..], k, v);
      var r := [m[0]] + tail;
      assert forall i :: 0 < i < |r| ==> r[i] == tail[i - 1];
      assert DistinctKeys(m) ==> forall i :: 0 <= i < |tail| ==> tail[i].key != m[0].key by {
        if DistinctKeys(m) {
          forall i | 0 <= i < |tail| ensures tail[i].key != m[0].key {
            if tail[i].key != k {
              LookupSomeHasIndex(m[1..], tail[i].key);
            }
          }
        }
      }
      r
  }

  lemma {:induction false} LookupSomeHasIndex<V>(m: OrderedMap<V>, k: string)
    requires Lookup(m, k).Some?
    ensures exists i :: 0 <= i < |m| && m[i].key == k
  {
    if m[0].key != k {
      LookupSomeHasIndex(m[1..], k);
      var i :| 0 <= i < |m[1..]| && m[1..][i].key == k;
      assert m[i + 1].key == k;
    }
  }

  lemma {:induction false} LookupAtIndex<V>(m: OrderedMap<V>, i: nat)
    requires i < |m|
    ensures Lookup(m, m[i].key).Some?
  {
    if i > 0 && m[0].key != m[i].key {
      assert m[1..][i - 1] == m[i];
      LookupAtIndex(m[1..], i - 1);
    }
  }

  /** `array_keys($m)`: the keys in insertion order. */
  function Keys<V>(m: OrderedMap<V>): (ks: seq<string>)
    ensures |ks| == |m|
    ensures forall i :: 0 <= i < |m| ==> ks[i] == m[i].key
  {
    if m == [] then [] else [m[0].key] + Keys(m[1..])
  }

  /** A key can be looked up exactly when it is among the keys. */
  lemma {:induction false} LookupIffKey<V>(m: OrderedMap<V>, k: string)
    ensures Lookup(m, k).Some? <==> k in Keys(m)
  {
    if m != [] {
      LookupIffKey(m[1..], k);
      assert Keys(m) == [m[0].key] + Keys(m[1..]);
    }
  }

  /** Assignment keeps the key order: an existing key stays in its place, and
      a new key goes to the end. */
  lemma {:induction false} PutKeys<V>(m: OrderedMap<V>, k: string, v: V)
    ensures Keys(Put(m, k, v)) == if k in Keys(m) then Keys(m) else Keys(m) + [k]
  {
    if m != [] {
      assert Keys(m) == [m[0].key] + Keys(m[1..]);
      if m[0].key == k {
        assert Put(m, k, v) == [Entry(k, v)] + m[1..];
        assert Keys(Put(m, k, v)) == [k] + Keys(m[1..]);
      } else {
        PutKeys(m[1..], k, v);
        assert Put(m, k, v) == [m[0]] + Put(m[1..], k, v);
        assert Keys(Put(m, k, v)) == [m[0].key] + Keys(Put(m[1..], k, v));
        assert k in Keys(m) <==> k in Keys(m[1..]);
      }
    }
  }

  /** `unset($m[$k])`. */
  function Remove<V>(m: OrderedMap<V>, k: string): (r: OrderedMap<V>)
    ensures Lookup(r, k) == None
    ensures forall k' :: k' != k ==> Lookup(r, k') == Lookup(m, k')
  {
    if m == [] then []
    else if m[0].key == k then Remove(m[1..], k)
    else [m[0]] + Remove(m[1..], k)
  }

  /** `$params[$k]`, null when the key is missing. */
  function Param(params: map<string, Value>, k: string): Value {
    if k in params then params[k] else Null
  }

  /** PHP `isset($params[$k])`: present and not null. */
  predicate IsSet(params: map<string, Value>, k: string) {
    k in params && params[k] != Null
  }

  /* ---------------------------------------------------- native handles */

  /** What a native connect call returns: false, or a connection resource
      (always truthy). */
  datatype Connection = NoConnection | Connection(id: nat)

  /* ---------------------------------------------------- error reporting */

  /** A message and level handed to the framework's `databaseError`. */
  datatype DbError = DbError(message: string, level: int)

  /** How a call that may report through `databaseError` ends: without an
      error, after an error the handler returned from, or aborted by it. */
  datatype Outcome<T> =
    | Returned(value: T)
    | RaisedThenReturned(error: DbError, value: T)
    | Aborted(error: DbError)
  {
    predicate Raised() {
      !Returned?
    }
  }

  /** Report `error`; whether the handler aborts at a level is the framework's
      policy, given as `aborts`. If it returns, execution resumes with `resume`. */
  function Raise<T>(error: DbError, aborts: int -> bool, resume: T): (o: Outcome<T>)
    ensures o.Raised() && o.error == error
    ensures o.Aborted? <==> aborts(error.level)
    ensures o.RaisedThenReturned? ==> o.value == resume
  {
    if aborts(error.level) then Aborted(error) else RaisedThenReturned(error, resume)
  }
}

=== FILE: sql_server_connector.dfy ===
/**
 The connector for the `sqlsrv_` library: the connection options it builds,
 the failure reports of `connect` and `transactionEnd`, and the outcome of
 `query`, which caches the affected-row count of the last statement.

 The native calls (`sqlsrv_connect`, `sqlsrv_query` with
 `sqlsrv_rows_affected`, `sqlsrv_commit`) and the framework's `previewWrite`
 are parameters; whether `databaseError` aborts is the policy `aborts`.
 This connector extends the framework's plain connector, so its errors
 carry no last-error suffix.
 */
module SQLServerConnector {
  import opened Php

  /** What `sqlsrv_query` returns: false, or a statement together with the
      count `sqlsrv_rows_affected` reports for it. */
  datatype Statement = StatementFailed | Statement(id: nat, rowsAffected: Value)

  /** The connector's fields: the connection and the cached affected-row count
      (null until a statement succeeds). */
  datatype ConnectorState = ConnectorState(dbConn: Connection, lastAffectedRows: Value)

  /** What `query` hands back: nothing, or a result wrapping the statement. */
  datatype QueryResult = NoResult | Wrapped(statement: Statement)

  const ConnectFailed := "Couldn't connect to SQL Server database"
  const CommitFailed := "Couldn't commit the transaction."
  const QueryFailed := "Couldn't run query: "

  /** SQL Server logins are used unless Windows authentication is switched on,
      either by a constant loosely equal to true (None: not defined) or by a
      non-empty `windowsauthentication` parameter. */
  predicate UsesSqlLogin(params: map<string, Value>, windowsAuthConstant: Option<Value>) {
    && !(windowsAuthConstant.Some? && Truthy(windowsAuthConstant.value))
    && Empty(Param(params, "windowsauthentication"))
  }

  /** The options array given to `sqlsrv_connect`. */
  function ConnectOptions(params: map<string, Value>, windowsAuthConstant: Option<Value>)
    : (options: OrderedMap<Value>)
    ensures DistinctKeys(options)
    ensures Lookup(options, "CharacterSet") == Some(Str("UTF-8"))
    ensures Lookup(options, "MultipleActiveResultSets") == Some(Bool(true))
    ensures UsesSqlLogin(params, windowsAuthConstant) ==>
      && Lookup(options, "UID") == Some(Param(params, "username"))
      && Lookup(options, "PWD") == Some(Param(params, "password"))
    ensures !UsesSqlLogin(params, windowsAuthConstant) ==>
      Lookup(options, "UID").None? && Lookup(options, "PWD").None?
    ensures forall k :: Lookup(options, k).Some? ==>
      k == "CharacterSet" || k == "MultipleActiveResultSets" || k == "UID" || k == "PWD"
  {
    var base := [Entry("CharacterSet", Str("UTF-8")), Entry("MultipleActiveResultSets", Bool(true))];
    assert forall k :: k != "CharacterSet" && k != "MultipleActiveResultSets" ==> Lookup(base, k) == None by {
      forall k | k != "CharacterSet" && k != "MultipleActiveResultSets"
        ensures Lookup(base, k) == None
      {
        var rest := [Entry("MultipleActiveResultSets", Bool(true))];
        assert base[1..] == rest && rest[1..] == [];
        assert Lookup(base, k) == Lookup(rest, k) == Lookup([], k);
      }
    }
    if UsesSqlLogin(params, windowsAuthConstant) then
      var withUid := Put(base, "UID", Param(params, "username"));
      Put(withUid, "PWD", Param(params, "password"))
    else base
  }

  /** `connect`: the connection is whatever `sqlsrv_connect` returns for the
      server parameter and the options; a false one is reported. */
  function Connect(st: ConnectorState, params: map<string, Value>,
                   windowsAuthConstant: Option<Value>,
                   sqlsrvConnect: (Value, OrderedMap<Value>) -> Connection,
                   aborts: int -> bool): (o: Outcome<ConnectorState>)
    ensures
      var link := sqlsrvConnect(Param(params, "server"), ConnectOptions(params, windowsAuthConstant));
      && (o.Raised() <==> link == NoConnection)
      && (o.Raised() ==> o.error == DbError(ConnectFailed, E_USER_ERROR))
      && (!o.Aborted? ==> o.value == st.(dbConn := link))
  {
    var link := sqlsrvConnect(Param(params, "server"), ConnectOptions(params, windowsAuthConstant));
    var next := st.(dbConn := link);
    if link == NoConnection then Raise(DbError(ConnectFailed, E_USER_ERROR), aborts, next)
    else Returned(next)
  }

  /** `transactionEnd`: commit, reporting a failed commit at `E_USER_ERROR`. */
  function TransactionEnd(st: ConnectorState, commit: Connection -> bool,
                          aborts: int -> bool): (o: Outcome<ConnectorState>)
    ensures o.Raised() <==> !commit(st.dbConn)
    ensures o.Raised() ==> o.error == DbError(CommitFailed, E_USER_ERROR)
    ensures !o.Aborted? ==> o.value == st
  {
    if !commit(st.dbConn) then Raise(DbError(CommitFailed, E_USER_ERROR), aborts, st)
    else Returned(st)
  }

  /** `query` at error level `level` (0 is PHP's falsy level). */
  function Query(st: ConnectorState, sql: string, level: int,
                 preview: string -> bool,
                 execute: (Connection, string) -> Statement,
                 aborts: int -> bool): (o: Outcome<(ConnectorState, QueryResult)>)
    // a previewed write returns nothing, touches nothing and runs nothing
    ensures preview(sql) ==> o == Returned((st, NoResult))
    ensures !preview(sql) ==>
      var h := execute(st.dbConn, sql);
      && (h.Statement? ==>
            o == Returned((st.(lastAffectedRows := h.rowsAffected), Wrapped(h))))
      && (h == StatementFailed && level == 0 ==> o == Returned((st, NoResult)))
      && (h == StatementFailed && level != 0 ==>
            && o.Raised() && o.error == DbError(QueryFailed + sql, level)
            && (o.Aborted? <==> aborts(level))
            && (!o.Aborted? ==> o.value == (st, Wrapped(h))))
    // the cached count changes only when a statement succeeded
    ensures !o.Aborted? && o.value.0.lastAffectedRows != st.lastAffectedRows ==>
      o.value.1.Wrapped? && o.value.1.statement.Statement?
  {
    if preview(sql) then Returned((st, NoResult))
    else
      var h := execute(st.dbConn, sql);
      if h.Statement? then Returned((st.(lastAffectedRows := h.rowsAffected), Wrapped(h)))
      else if level == 0 then Returned((st, NoResult))
      else Raise(DbError(QueryFailed + sql, level), aborts, (st, Wrapped(h)))
  }
}

=== FILE: text.dfy ===
/**
 Character and string helpers shared by the driver model. Strings are
 `seq<char>`; case folding is ASCII-only, as in PCRE's default tables.
 The PHP library functions the driver leans on (`trim`, `explode`,
 `str_replace` of one character, integer printing) are defined here once.
 */
module Text {

  /* ---------------------------------------------------------------- digits */

  predicate IsDigit(c: char) {
    '0' <= c <= '9'
  }

  predicate AllDigits(s: string) {
    forall i :: 0 <= i < |s| ==> IsDigit(s[i])
  }

  function DigitValue(c: char): nat
    requires IsDigit(c)
  {
    c as int - '0' as int
  }

  function DigitChar(d: nat): (c: char)
    requires d < 10
    ensures IsDigit(c) && DigitValue(c) == d
  {
    ('0' as int + d) as char
  }

  /** Value of a decimal digit string, most significant digit first; "" is 0. */
  function DigitsValue(s: string): nat
    requires AllDigits(s)
  {
    if s == [] then 0 else DigitsValue(s[..|s| - 1]) * 10 + DigitValue(s[|s| - 1])
  }

  /** Decimal text of `n` without leading zeros, as PHP prints an integer. */
  function NatToString(n: nat): (r: string)
    ensures |r| > 0 && AllDigits(r)
    ensures DigitsValue(r) == n
    ensures r[0] == '0' ==> |r| == 1
    decreases n
  {
    if n < 10 then [DigitChar(n)]
    else
      var front := NatToString(n / 10);
      var r := front + [DigitChar(n % 10)];
      assert r[..|r| - 1] == front;
      r
  }

  /** Decimal text of a signed integer, as PHP's string conversion of an int. */
  function IntToString(i: int): (r: string)
    ensures |r| > 0
    ensures i >= 0 ==> AllDigits(r) && DigitsValue(r) == i
    ensures i < 0 ==> r[0] == '-' && AllDigits(r[1..]) && DigitsValue(r[1..]) == -i
  {
    if i < 0 then "-" + NatToString(-i) else NatToString(i)
  }

  /** Length of the longest all-digit prefix of `s`. */
  function DigitPrefixLength(s: string): (n: nat)
    ensures n <= |s| && AllDigits(s[..n])
    ensures n < |s| ==> !IsDigit(s[n])
  {
    if s == [] || !IsDigit(s[0]) then 0
    else
      var n := 1 + DigitPrefixLength(s[1..]);
      assert s[..n] == [s[0]] + s[1..][..n - 1];
      n
  }

  /* ---------------------------------------------------------- case folding */

  function Lower(c: char): char {
    if 'A' <= c <= 'Z' then (c as int + 32) as char else c
  }

  /** Equal up to ASCII case, as a PCRE pattern with the `i` flag compares. */
  predicate CiEq(a: string, b: string) {
    |a| == |b| && forall i :: 0 <= i < |a| ==> Lower(a[i]) == Lower(b[i])
  }

  /** `s` starts with `p`, ignoring ASCII case. */
  predicate CiStartsWith(s: string, p: string) {
    |p| <= |s| && CiEq(s[..|p|], p)
  }

  /* ------------------------------------------------------------ substrings */

  /** `needle` occurs somewhere in `s` (an unanchored literal regex match). */
  predicate Contains(s: string, needle: string)
    decreases |s|
  {
    if |s| < |needle| then false
    else s[..|needle|] == needle || (s != [] && Contains(s[1..], needle))
  }

  /* ------------------------------------------------------------------ trim */

  /** The characters PHP's `trim` strips by default: space, tab, LF, CR, NUL, VT. */
  predicate IsTrimChar(c: char) {
    c == ' ' || c == '\t' || c == '\n' || c == '\r' || c == '\0' || c == '\U{B}'
  }

  predicate AllTrimChars(s: string) {
    forall i :: 0 <= i < |s| ==> IsTrimChar(s[i])
  }

  function TrimLeft(s: string): (r: string)
    ensures |r| <= |s| && r == s[|s| - |r|..]
    ensures AllTrimChars(s[..|s| - |r|])
    ensures r == [] || !IsTrimChar(r[0])
  {
    if s != [] && IsTrimChar(s[0]) then
      var r := TrimLeft(s[1..]);
      assert s[..|s| - |r|] == [s[0]] + s[1..][..|s| - 1 - |r|];
      r
    else s
  }

  function TrimRight(s: string): (r: string)
    ensures |r| <= |s| && r == s[..|r|]
    ensures AllTrimChars(s[|r|..])
    ensures r == [] || !IsTrimChar(r[|r| - 1])
  {
    if s != [] && IsTrimChar(s[|s| - 1]) then
      var r := TrimRight(s[..|s| - 1]);
      assert s[|r|..] == s[..|s| - 1][|r|..] + [s[|s| - 1]];
      r
    else s
  }

  /** Neither end is a trim character: what `trim` leaves. */
  predicate Trimmed(s: string) {
    s == [] || (!IsTrimChar(s[0]) && !IsTrimChar(s[|s| - 1]))
  }

  /** PHP `trim($s)`: strip trim characters from both ends. */
  function Trim(s: string): (r: string)
    ensures Trimmed(r)
  {
    TrimRight(TrimLeft(s))
  }

  /** Trim removes exactly the surrounding trim characters: whatever padding
      surrounds a core that neither starts nor ends with one, the core comes back. */
  lemma TrimRecoversCore(lead: string, core: string, trail: string)
    requires AllTrimChars(lead) && AllTrimChars(trail)
    requires Trimmed(core)
    ensures Trim(lead + core + trail) == core
  {
    if core == [] {
      TrimAllPadding(lead, trail);
      assert lead + core + trail == lead + trail;
    } else {
      TrimAroundCore(lead, core, trail);
    }
  }

  lemma TrimAllPadding(lead: string, trail: string)
    requires AllTrimChars(lead) && AllTrimChars(trail)
    ensures Trim(lead + trail) == []
  {
    var s := lead + trail;
    forall i | 0 <= i < |s| ensures IsTrimChar(s[i]) {
      if i < |lead| {
        assert s[i] == lead[i];
      } else {
        assert s[i] == trail[i - |lead|];
      }
    }
    TrimLeftAll(s);
  }

  lemma TrimAroundCore(lead: string, core: string, trail: string)
    requires AllTrimChars(lead) && AllTrimChars(trail)
    requires core != [] && !IsTrimChar(core[0]) && !IsTrimChar(core[|core| - 1])
    ensures Trim(lead + core + trail) == core
  {
    var rest := core + trail;
    assert lead + core + trail == lead + rest;
    assert rest[0] == core[0];
    TrimLeftDrops(lead, rest);
    TrimRightDrops(core, trail);
  }

  lemma {:induction false} TrimLeftAll(s: string)
    requires AllTrimChars(s)
    ensures TrimLeft(s) == []
    decreases |s|
  {
    if s != [] {
      TrimLeftAll(s[1..]);
    }
  }

  lemma {:induction false} TrimLeftDrops(lead: string, rest: string)
    requires AllTrimChars(lead)
    requires rest == [] || !IsTrimChar(rest[0])
    ensures TrimLeft(lead + rest) == rest
    decreases |lead|
  {
    if lead != [] {
      assert (lead + rest)[1..] == lead[1..] + rest;
      TrimLeftDrops(lead[1..], rest);
    }
  }

  lemma {:induction false} TrimRightDrops(core: string, trail: string)
    requires AllTrimChars(trail)
    requires core == [] || !IsTrimChar(core[|core| - 1])
    ensures TrimRight(core + trail) == core
    decreases |trail|
  {
    if trail != [] {
      var t := trail[..|trail| - 1];
      assert (core + trail)[..|core + trail| - 1] == core + t;
      TrimRightDrops(core, t);
    } else {
      assert core + trail == core;
    }
  }

  /* --------------------------------------------------------------- explode */

  /** PHP `explode($sep, $s)` for a one-character separator: the pieces between
      separators, at least one, possibly empty. */
  function Explode(s: string, sep: char): (parts: seq<string>)
    ensures |parts| >= 1
    ensures forall i :: 0 <= i < |parts| ==> sep !in parts[i]
    ensures |parts| > 1 <==> sep in s
  {
    if s == [] then [[]]
    else
      var rest := Explode(s[1..], sep);
      if s[0] == sep then [[]] + rest
      else [[s[0]] + rest[0]] + rest[1..]
  }

  /** PHP `implode($sep, $parts)`. */
  function Join(parts: seq<string>, sep: char): string
    requires |parts| >= 1
  {
    if |parts| == 1 then parts[0] else parts[0] + [sep] + Join(parts[1..], sep)
  }

  /** Joining the pieces again gives back the exploded text. */
  lemma {:induction false} JoinExplode(s: string, sep: char)
    ensures Join(Explode(s, sep), sep) == s
  {
    if s != [] {
      JoinExplode(s[1..], sep);
      var rest := Explode(s[1..], sep);
      if s[0] != sep {
        if |rest| == 1 {
          assert Explode(s, sep) == [[s[0]] + rest[0]];
        } else {
          var parts := Explode(s, sep);
          assert parts[1..] == rest[1..];
          assert Join(rest, sep) == rest[0] + [sep] + Join(rest[1..], sep);
        }
      }
    }
  }

  /** A separator-free first piece stays whole in front of whatever follows. */
  lemma {:induction false} ExplodePrefix(head: string, tail: string, sep: char)
    requires sep !in head
    ensures Explode(head + tail, sep)
            == [head + Explode(tail, sep)[0]] + Explode(tail, sep)[1..]
    decreases |head|
  {
    if head == [] {
      var e := Explode(tail, sep);
      assert head + tail == tail;
      assert head + e[0] == e[0];
      assert e == [e[0]] + e[1..];
    } else {
      assert (head + tail)[1..] == head[1..] + tail;
      ExplodePrefix(head[1..], tail, sep);
      assert [head[0]] + (head[1..] + Explode(tail, sep)[0]) == head + Explode(tail, sep)[0];
    }
  }

  /** Exploding a join of separator-free pieces gives back the pieces. */
  lemma {:induction false} ExplodeJoin(parts: seq<string>, sep: char)
    requires |parts| >= 1
    requires forall i :: 0 <= i < |parts| ==> sep !in parts[i]
    ensures Explode(Join(parts, sep), sep) == parts
    decreases |parts|
  {
    var head := parts[0];
    if |parts| == 1 {
      ExplodePrefix(head, [], sep);
      assert head + [] == head;
    } else {
      var rest := parts[1..];
      assert forall i :: 0 <= i < |rest| ==> sep !in rest[i] by {
        forall i | 0 <= i < |rest| ensures sep !in rest[i] {
          assert rest[i] == parts[i + 1];
        }
      }
      ExplodeJoin(rest, sep);
      var tail := [sep] + Join(rest, sep);
      assert Join(parts, sep) == head + tail;
      ExplodePrefix(head, tail, sep);
      assert tail[1..] == Join(rest, sep);
      assert Explode(tail, sep) == [[]] + rest;
      assert head + [] == head;
    }
  }

  /* ------------------------------------------------- single-char replace */

  /** PHP `str_replace($c, $by, $s)` for a one-character search string. */
  function ReplaceChar(s: string, c: char, repl: string): (r: string)
    ensures c !in repl ==> c !in r
    ensures c !in s ==> r == s
  {
    if s == [] then []
    else (if s[0] == c then repl else [s[0]]) + ReplaceChar(s[1..], c, repl)
  }

  /** Replacement handles the first character on its own. */
  lemma ReplaceCharCons(x: char, s: string, c: char, repl: string)
    ensures ReplaceChar([x] + s, c, repl) == (if x == c then repl else [x]) + ReplaceChar(s, c, repl)
  {
    assert ([x] + s)[0] == x && ([x] + s)[1..] == s;
  }

  /** Replacement works piecewise, so it distributes over concatenation. */
  lemma {:induction false} ReplaceCharAppend(a: string, b: string, c: char, repl: string)
    ensures ReplaceChar(a + b, c, repl) == ReplaceChar(a, c, repl) + ReplaceChar(b, c, repl)
    decreases |a|
  {
    if a != [] {
      assert (a + b)[1..] == a[1..] + b;
      ReplaceCharAppend(a[1..], b, c, repl);
    } else {
      assert a + b == b;
    }
  }

  /** Removing every double quote, PHP `str_replace('"', '', $s)`. */
  function StripDoubleQuotes(s: string): (r: string)
    ensures '"' !in r
  {
    ReplaceChar(s, '"', [])
  }
}
